=== FILE: README.md ===
# Transfer-learning helpers, modelled in Dafny

`transfer_learning.py` is mostly glue around TensorFlow, scikit-learn and the
filesystem. This project models the three pieces of it that are plain,
deterministic logic, and proves what they promise.

- **Confusion-mapping builder** (`create_confusion_matrix_mapping`), module
  `ConfusionMapping` in `confusion_mapping.dfy`. The Keras generator is
  replaced by its two fields: `filepaths` (a sequence of paths) and
  `classes` (a sequence of true class indices). The builder first builds the
  `num_to_class` table. Then it zips paths, predictions and truths, and files
  each path under the key (predicted name, true name). The exceptions it can
  raise (`IndexError`, `KeyError`) are the `Failure` cases of a `Result`.
- **Layer flattener** (`flatten_model` and its inner `get_layers`), module
  `ModelFlattener` in `model_flattener.dfy`. A Keras layer is a tagged tree,
  `Leaf(name) | Composite(children)`. The `AttributeError` the source catches
  to recognise a leaf is the `Leaf` constructor here. A work-list
  implementation is proved equal to the recursive one.
- **Split bookkeeping** (`create_training_testing_split`), module
  `DatasetSplit` in `dataset_split.dfy`. This is a state transformer over an
  abstract filesystem: a set of directories, and a map from each copied
  destination to its source path. The call state `Run` holds:
  - the filesystem;
  - the `image_id` counter;
  - the log of `copyfile` calls, in order;
  - the exception that ended the call, if any.

  Copies made before an exception therefore stay on disk, as in Python.
  - `os.listdir` answers come from a read-only `Dataset` snapshot.
  - `sklearn.model_selection.train_test_split` is an oracle parameter that
    may fail (`None`).
  - A destination `<partition>/<class>/<id>.jpg` is kept structured, as
    `Dest(partition, cls, id)`.

`results.dfy` (`Option`, `Result`) and `sequences.dfy` (subsequence,
distinctness, index lookup, mapping a function over a sequence) hold shared
helpers.

Two behaviours of the code that its parameter names do not suggest:

- The second `train_test_split` reuses `test_split_percent`.
  `validation_split_percent` is never read, so the validation part is the
  test fraction of the remainder. `ProcessClass` states which part goes
  where: the second split's train part to the train directory, the first
  split's test part to the test directory, and the second split's test part
  to the validation directory (`PartitionLogLayout` spells out the copies).
  `ValidationFractionIgnored` and `OnlyTestFractionConsulted` state that
  `validation_split_percent` plays no part.
- Classes are processed in the order of the `dataset` listing, not the order
  of `classes`.

## Model

| member | source | states |
|---|---|---|
| `ConfusionMapping.Zip` | transfer_learning.py:118 | element `i` bundles the `i`-th path, prediction and truth, and the zip has the length of the shortest of the three sequences |
| `ConfusionMapping.ClassTable` | transfer_learning.py:108-114 | the `num_to_class` loop succeeds exactly when the count is at most `len(classes)`; otherwise it raises `IndexError(len(classes))`; on success its keys are exactly `0 .. n-1`, mapped to `classes[c]` |
| `ConfusionMapping.Group` | transfer_learning.py:117-126 | the grouping loop succeeds exactly when every sample's prediction and truth have a table entry |
| `ConfusionMapping.GroupFirstFailure` | transfer_learning.py:118-120 | the loop raises the `KeyError` of the first sample with a missing index, looking up the prediction before the truth |
| `ConfusionMapping.BuildMapping` | transfer_learning.py:94-126 | the builder succeeds exactly when there are at least as many class names as distinct true indices and every zipped index lies below that distinct count; with too few names it raises `IndexError(len(classes))` |
| `ConfusionMapping.GroupIsSelect` | transfer_learning.py:117-125 | every entry of the grouping equals the reference selection of its cell (the paths of the samples in that cell, in input order), and a cell has an entry exactly when that selection is non-empty |
| `ConfusionMapping.GroupConservation` | transfer_learning.py:117-125 | the list lengths of the grouping add up to the number of samples |
| `ConfusionMapping.MappingConservation` | transfer_learning.py:118-125 | the list lengths across all keys add up to the number of zipped triples |
| `ConfusionMapping.MappingSparse` | transfer_learning.py:122-125 | no key has an empty list |
| `ConfusionMapping.MappingStableOrder` | transfer_learning.py:118-125 | each key's list is a subsequence of `file_paths`: paths keep their input order |
| `ConfusionMapping.MappingMembership` | transfer_learning.py:118-125 | triple `i`'s path is in the list of key `(classes[pred_i], classes[truth_i])`, and every listed path comes from a triple of that very key |
| `ConfusionMapping.CatDogExample` | transfer_learning.py:94-126 | a worked example, for any three paths and any two distinct class names: a correct cat, a correct dog and a dog taken for a cat give three keys with one path each |
| `ConfusionMapping.UnseenPredictionCounterexample` | transfer_learning.py:108-120 | a cat image predicted as dog, in a test set with no dog image, raises `KeyError(1)`; the intended builder files it under `(dog, cat)` |
| `ConfusionMapping.FullClassTable` | transfer_learning.py:112-114 | the intended lookup table is the one the `num_to_class` loop builds when it runs over every position of `classes` |
| `ConfusionMapping.BuildMappingIntended` | transfer_learning.py:108-126 | the corrected builder succeeds exactly when every zipped index is a position of `classes` |
| `ConfusionMapping.IntendedAgreesWithAsWritten` | transfer_learning.py:108-126 | wherever the builder as written succeeds, the corrected one returns the same mapping |
| `ConfusionMapping.IntendedMappingConserves` | transfer_learning.py:117-125 | the corrected builder files one path per zipped triple, and triple `i` under `(classes[pred_i], classes[truth_i])` |
| `ModelFlattener.Flatten` | transfer_learning.py:80-87 | `get_layers` returns only leaves, as many as the nested structure has |
| `ModelFlattener.FlattenModel` | transfer_learning.py:89-92 | flattening succeeds exactly on a composite (reading `layers` of a leaf raises), and the flat model holds one leaf per leaf of the original |
| `ModelFlattener.FlattenAppend` | transfer_learning.py:82-86 | flattening distributes over concatenation |
| `ModelFlattener.FlattenIdentityIffLeaves` | transfer_learning.py:82-86 | a list is returned unchanged exactly when it contains no composite |
| `ModelFlattener.FlattenIdempotent` | transfer_learning.py:80-87 | flattening a flat list changes nothing |
| `ModelFlattener.FlattenMembership` | transfer_learning.py:80-87 | a layer is in the output exactly when it is a leaf found somewhere in the nested structure |
| `ModelFlattener.DepthFirstOrder` | transfer_learning.py:82-86 | a composite's leaves appear in its place, between the leaves of the layers before and after it |
| `ModelFlattener.FlattenModelPreservesLeaves` | transfer_learning.py:89-92 | the flat model has the same leaves in the same order, and flattening it again changes nothing |
| `ModelFlattener.FlattenWithStack` | transfer_learning.py:80-87 | a loop with an explicit work list computes the same list as the recursive `get_layers` |
| `DatasetSplit.MakeDir` | transfer_learning.py:42-44 | `os.mkdir` succeeds exactly when the directory is absent, and adds only that directory; on an existing directory it raises `FileExistsError` for that directory; after an earlier exception it changes nothing |
| `DatasetSplit.MakePartitionDirs` | transfer_learning.py:41-44 | creating the three partition directories succeeds exactly when they are distinct and none exists, and then adds exactly those three; no other directory can appear. On an exception it names the first directory that already exists, in the order train, test, validation (an earlier one of the three counts as existing), and the directories made before it stay |
| `DatasetSplit.FilterClasses` | transfer_learning.py:48 | the filtered list holds exactly the entries that are also in `classes`, in listing order, without repeats when the listing has none |
| `DatasetSplit.MakeClassDirs` | transfer_learning.py:51-54 | with `<train_dir>/<cls>` present nothing happens. Otherwise it raises `FileExistsError` exactly when the test or validation class directory exists, or coincides with one made before it. Without an exception all three class directories are added and nothing else. The exception names the test class directory, with only the train class directory made, or else the validation class directory, with the train and test class directories made |
| `DatasetSplit.CopyFiles` | transfer_learning.py:61-64 | one copy loop makes exactly the copies `Numbered` lists: the `i`-th file goes to id `image_id + 1 + i`, and the counter ends advanced by the number of files |
| `DatasetSplit.CopyPartitions` | transfer_learning.py:61-72 | the three loops of a class make exactly the copies of its train, then test, then validation part, numbered on from the counter |
| `DatasetSplit.PartitionLogLayout` | transfer_learning.py:61-72 | the `j`-th copy of a class takes the `j`-th file of train, test and validation concatenated; it goes to the train, test or validation directory according to the part that file is in |
| `DatasetSplit.PartitionLogRanks` | transfer_learning.py:61-72 | within a class, the copies go to the train directory first, then the test directory, then the validation directory |
| `DatasetSplit.ProcessClass` | transfer_learning.py:50-72 | one class iteration keeps the earlier copies, numbers its own on from the counter, copies only into that class, and creates only that class's directories. An iteration that raises copies nothing. One that does not has a listing for the class and two successful splits. Its copies are then the second split's train part into the train directory, the first split's test part into the test directory, and the second split's test part into the validation directory, in that order. Conversely it ends without an exception exactly when its class directories are made, the class has a listing and both splits succeed. Otherwise the exception is the `FileExistsError` of the class directories, else a failed listing of a dataset entry that is not a directory, else a failed split; the class directories made before it stay |
| `DatasetSplit.ProcessClasses` | transfer_learning.py:50-72 | the class loop copies only classes it was given and creates only their directories; `ProcessClassesCopiesAll` states which files it copies when no exception occurs, and `ProcessClassesStopsAtFirstError` that an exception is the one of the first class iteration that raised |
| `DatasetSplit.ProcessClassesStopsAtFirstError` | transfer_learning.py:50-58 | a class loop that raises ends in the state of the first class iteration that raised, after every class before it went through without an exception |
| `DatasetSplit.CreateSplit` | transfer_learning.py:38-72 | an existing train directory means no change, no copy and no error. Otherwise the train directory gets created, and all three partition directories exist when no exception ends the call. Copy `i` gets id `i + 1`, so the counter equals the number of copies. The files are the copies applied in order, no directory disappears, and every copied class is both listed and requested; `SplitCopiesEveryFile` states which files are copied when no exception occurs, and `CreateSplitStopsAtFirstError` where an exception can come from |
| `DatasetSplit.CreateSplitStopsAtFirstError` | transfer_learning.py:38-58 | a split that raises did not find the train directory, and raised either in a partition `os.mkdir`, having done nothing after it, or in the first class iteration that raised, after the classes before it went through; with `ProcessClass` this ties every exception to a directory that exists, a listing that fails or a split that fails |
| `DatasetSplit.CopiesLandIntact` | transfer_learning.py:49-72 | no copy is overwritten by a later one; every other file keeps its contents |
| `DatasetSplit.IdsUniqueAndIncreasing` | transfer_learning.py:49-72 | ids strictly increase in call order, so no two copies share a destination |
| `DatasetSplit.CopyOrderFollowsListing` | transfer_learning.py:48-72 | copies run class by class in listing order, and within a class train, test, validation; any run that copies has three distinct partition directories |
| `DatasetSplit.ClassFilesCopiedOnce` | transfer_learning.py:56-72 | when both splits partition their input and the iteration does not raise, a class is copied file for file: as many copies as listed files, whose source paths are a rearrangement of the listed files' paths |
| `DatasetSplit.ProcessClassesCopiesAll` | transfer_learning.py:50-72 | when the class loop ends without an exception and the splits partition their input, every class it was given is listed, and the loop makes one copy per listed file of those classes: its copies' sources are a rearrangement of all those files |
| `DatasetSplit.SplitCopiesEveryFile` | transfer_learning.py:38-72 | a split that starts without a train directory and ends without an exception copies every file of every listed, requested class once, so the ids run from 1 to the number of those files |
| `DatasetSplit.ValidationFractionIgnored` | transfer_learning.py:38-58 | the outcome is the same for every value of `validation_split_percent` |
| `DatasetSplit.OnlyTestFractionConsulted` | transfer_learning.py:57-58 | two split oracles that agree on `test_split_percent` give the same outcome |
| `DatasetSplit.DirectoriesCreated` | transfer_learning.py:41-54 | the only new directories are the three partition directories and the class directories of listed, requested classes |
| `DatasetSplit.LeftoverTestDirRaises` | transfer_learning.py:41-44 | a leftover test directory with a missing train directory raises `FileExistsError` on the second `mkdir`; by then only the train directory was created, and nothing was copied |

## Left out

- Model building, compilation, `fit`, `evaluate`, `predict`, callbacks and checkpointing (transfer_learning.py:14-29, 130-192): opaque Keras framework calls.
- The learning-curve plot, the `pd.DataFrame` and `plot_confusion_matrix` (transfer_learning.py:195-202, 212, 286-308): presentation only.
- The argmax, the accuracy ratio and `tf.math.confusion_matrix` (transfer_learning.py:205-209, 297-300): floating point over model outputs.
- Backbone dispatch, argparse and the duplicated `__main__` pipeline (transfer_learning.py:144-152, 222-308): configuration glue. The directory names built at transfer_learning.py:138-141 are fields of `SplitConfig`, taken as given.
- `train_test_split` internals: it is an oracle, and `None` stands for its exceptions (for instance on an empty class directory). The `random_state = 42` determinism is the oracle being a function.
- `print` calls (transfer_learning.py:47, 63, 67, 71): output only.
- The listing at transfer_learning.py:40 runs before the existence check. A missing `dataset` root would raise even on the early-return path, but the model's listing is a snapshot and cannot fail.
- `os.mkdir` failures other than an existing directory (a missing parent, permissions) and `copyfile` failures (a missing or unreadable source) are not modelled. A copy overwrites its destination, as `copyfile` does.
- Paths are compared as strings: no normalisation, no symbolic links. A plain file at a directory path is not modelled.
- The result dictionary's key order (Python dicts keep insertion order, so keys come in order of first occurrence): the model's `map` has no order, and nothing in transfer_learning.py iterates the result.
- The `%d.jpg` rendering of the id is kept as the number itself, since decimal rendering is injective.
- The built `tf.keras.Sequential` is a `Composite` of the flat leaves. Keras's own checks when building it (duplicate layer names, for instance) are not modelled.
- `DatasetSplit.ClassFilesCopiedOnce`: assumes that `train_test_split` returns a partition of its input (the `PartitioningOracle` predicate); nothing is claimed for an oracle that drops or duplicates files.
- `DatasetSplit.ProcessClassesCopiesAll`: assumes that `train_test_split` returns a partition of its input (the `PartitioningOracle` predicate); nothing is claimed for an oracle that drops or duplicates files.
- `DatasetSplit.SplitCopiesEveryFile`: assumes that `train_test_split` returns a partition of its input (the `PartitioningOracle` predicate); nothing is claimed for an oracle that drops or duplicates files.
- `DatasetSplit.CopyOrderFollowsListing`: requires a listing without repeated entries, which `os.listdir` guarantees.

## Findings

| source | as written | input that shows it | evidently intended | confidence | as-written member | corrected member |
|---|---|---|---|---|---|---|
| transfer_learning.py:108-120 | `num_to_class` gets one entry per distinct true index (`np.unique(true_classes)`), for the indices `0 .. k-1` only | predictions `[1]`, true classes `[0]`, classes `["cat", "dog"]`: `num_to_class[1]` raises `KeyError(1)`. Likewise any test set whose true indices are not exactly `0 .. k-1`, or any prediction of an index absent from the truths | one entry per position of `classes`, so every valid prediction or truth index resolves | medium; not executed | `ConfusionMapping.UnseenPredictionCounterexample` | `ConfusionMapping.BuildMappingIntended` |

=== FILE: confusion_mapping.dfy ===
/** The confusion-mapping builder of transfer_learning.py
    (`create_confusion_matrix_mapping`). It files the path of every test
    image under the (predicted class name, true class name) cell of the
    confusion matrix it falls in. The Keras generator it reads is modelled by
    its two fields `filepaths` and `classes`, passed as plain sequences. */
module ConfusionMapping {
  import opened Results
  import opened Sequences

  type ClassName = string
  type FilePath = string

  /** A key of the mapping: one cell of the confusion matrix. */
  datatype Cell = Cell(predicted: ClassName, truth: ClassName)

  /** One element of `zip(file_paths, predictions, true_classes)`. */
  datatype Sample = Sample(path: FilePath, prediction: int, truth: int)

  /** The exceptions the builder can raise. */
  datatype MappingError =
    | IndexError(index: int)  // `classes[c]` with `c` past the end of the name list
    | KeyError(key: int)      // `num_to_class[k]` for an index without an entry

  /** The result: a sparse dictionary from cell to the paths filed there. */
  type Mapping = map<Cell, seq<FilePath>>

  function Min(a: int, b: int): int
  {
    if a <= b then a else b
  }

  /** `zip(file_paths, predictions, true_classes)`: element `i` bundles the
      `i`-th entry of each sequence, and the zip stops at the shortest one. */
  function Zip(paths: seq<FilePath>, predictions: seq<int>, truths: seq<int>): (samples: seq<Sample>)
    ensures |samples| == Min(|paths|, Min(|predictions|, |truths|))
    ensures forall i :: 0 <= i < |samples| ==> samples[i] == Sample(paths[i], predictions[i], truths[i])
  {
    if paths == [] || predictions == [] || truths == [] then []
    else [Sample(paths[0], predictions[0], truths[0])] + Zip(paths[1..], predictions[1..], truths[1..])
  }

  /** The paths of the samples, in order. */
  function Paths(samples: seq<Sample>): seq<FilePath>
  {
    Map((s: Sample) => s.path, samples)
  }

  /** `np.unique(true_classes).shape[0]`: the number of distinct true indices. */
  function DistinctCount(truths: seq<int>): nat
  {
    |set t | t in truths|
  }

  /** The `num_to_class` loop: entry `c` is `classes[c]` for every `c` below
      `n`. Indexing past the end of `classes` raises `IndexError`, which
      happens exactly when `n` exceeds the number of class names. */
  function ClassTable(classes: seq<ClassName>, n: nat): (r: Result<map<int, ClassName>, MappingError>)
    ensures r.Success? <==> n <= |classes|
    ensures r.Failure? ==> r.error == IndexError(|classes|)
    ensures r.Success? ==> forall c :: c in r.value <==> 0 <= c < n
    ensures r.Success? ==> forall c :: c in r.value ==> r.value[c] == classes[c]
    decreases n
  {
    if n == 0 then Success(map[])
    else
      match ClassTable(classes, n - 1)
      case Failure(e) => Failure(e)
      case Success(table) =>
        if n - 1 < |classes| then Success(table[n - 1 := classes[n - 1]])
        else Failure(IndexError(n - 1))
  }

  /** Both lookups of a sample succeed. */
  predicate Resolvable(table: map<int, ClassName>, s: Sample)
  {
    s.prediction in table && s.truth in table
  }

  predicate AllResolvable(table: map<int, ClassName>, samples: seq<Sample>)
  {
    forall i :: 0 <= i < |samples| ==> Resolvable(table, samples[i])
  }

  /** The cell a sample is filed under. */
  function CellOf(table: map<int, ClassName>, s: Sample): Cell
    requires Resolvable(table, s)
  {
    Cell(table[s.prediction], table[s.truth])
  }

  /** The exception a failing sample raises: the prediction is looked up
      before the truth. */
  function LookupError(table: map<int, ClassName>, s: Sample): MappingError
    requires !Resolvable(table, s)
  {
    if s.prediction !in table then KeyError(s.prediction) else KeyError(s.truth)
  }

  /** Reference definition of one entry: the paths of the samples that fall
      in `cell`, in input order. */
  function Select(table: map<int, ClassName>, samples: seq<Sample>, cell: Cell): seq<FilePath>
    requires AllResolvable(table, samples)
  {
    if samples == [] then []
    else
      (if CellOf(table, samples[0]) == cell then [samples[0].path] else [])
      + Select(table, samples[1..], cell)
  }

  /** The grouping loop: for each sample in order, look up both names, create
      the cell's list if it is missing, and append the path. The first sample
      with an index missing from the table raises `KeyError`. */
  function Group(table: map<int, ClassName>, samples: seq<Sample>): (r: Result<Mapping, MappingError>)
    ensures r.Success? <==> AllResolvable(table, samples)
    decreases |samples|
  {
    if samples == [] then Success(map[])
    else
      var last := samples[|samples| - 1];
      match Group(table, samples[..|samples| - 1])
      case Failure(e) => Failure(e)
      case Success(m) =>
        if last.prediction !in table then Failure(KeyError(last.prediction))
        else if last.truth !in table then Failure(KeyError(last.truth))
        else
          var cell := Cell(table[last.prediction], table[last.truth]);
          var paths := if cell in m then m[cell] else [];
          Success(m[cell := paths + [last.path]])
  }

  /** The loop stops at the first sample with an index missing from the
      table, raising the `KeyError` of that sample's first failing lookup. */
  lemma {:induction false} GroupFirstFailure(table: map<int, ClassName>, samples: seq<Sample>, k: nat)
    requires k < |samples|
    requires forall j :: 0 <= j < k ==> Resolvable(table, samples[j])
    requires !Resolvable(table, samples[k])
    ensures Group(table, samples) == Failure(LookupError(table, samples[k]))
    decreases |samples|
  {
    var init := samples[..|samples| - 1];
    if k == |samples| - 1 {
      assert AllResolvable(table, init) by {
        forall j | 0 <= j < |init| ensures Resolvable(table, init[j]) {
          assert init[j] == samples[j];
        }
      }
    } else {
      assert init[k] == samples[k];
      assert forall j :: 0 <= j < k ==> init[j] == samples[j];
      GroupFirstFailure(table, init, k);
    }
  }

  /** `create_confusion_matrix_mapping(predictions, generator, classes)` with
      `generator.filepaths == paths` and `generator.classes == truths`. It
      succeeds exactly when there are enough class names for the distinct
      true indices and every zipped index is below that distinct count. */
  function BuildMapping(paths: seq<FilePath>, predictions: seq<int>, truths: seq<int>, classes: seq<ClassName>)
    : (r: Result<Mapping, MappingError>)
    ensures r.Success? <==>
      && DistinctCount(truths) <= |classes|
      && forall i :: 0 <= i < Min(|paths|, Min(|predictions|, |truths|)) ==>
           0 <= predictions[i] < DistinctCount(truths) && 0 <= truths[i] < DistinctCount(truths)
    ensures r.Failure? && DistinctCount(truths) > |classes| ==> r.error == IndexError(|classes|)
  {
    match ClassTable(classes, DistinctCount(truths))
    case Failure(e) => Failure(e)
    case Success(table) =>
      var samples := Zip(paths, predictions, truths);
      assert AllResolvable(table, samples) <==>
        forall i :: 0 <= i < |samples| ==>
          0 <= predictions[i] < DistinctCount(truths) && 0 <= truths[i] < DistinctCount(truths);
      Group(table, samples)
  }

  // ---------------------------------------------------------------------
  // The grouping agrees with the reference definition

  lemma {:induction false} SelectSnoc(table: map<int, ClassName>, init: seq<Sample>, last: Sample, cell: Cell)
    requires AllResolvable(table, init) && Resolvable(table, last)
    ensures AllResolvable(table, init + [last])
    ensures Select(table, init + [last], cell)
         == Select(table, init, cell) + (if CellOf(table, last) == cell then [last.path] else [])
    decreases |init|
  {
    var s := init + [last];
    assert AllResolvable(table, s) by {
      forall i | 0 <= i < |s| ensures Resolvable(table, s[i]) {
        if i < |init| { assert s[i] == init[i]; }
      }
    }
    if init == [] {
      assert s == [last];
      assert s[1..] == [];
    } else {
      assert s[0] == init[0];
      assert s[1..] == init[1..] + [last];
      SelectSnoc(table, init[1..], last, cell);
    }
  }

  /** Every entry of the grouping is the reference selection of its cell,
      and a cell has an entry exactly when its selection is non-empty. */
  lemma {:induction false} GroupIsSelect(table: map<int, ClassName>, samples: seq<Sample>)
    requires AllResolvable(table, samples)
    ensures Group(table, samples).Success?
    ensures forall cell :: cell in Group(table, samples).value <==> Select(table, samples, cell) != []
    ensures forall cell :: cell in Group(table, samples).value ==>
      Group(table, samples).value[cell] == Select(table, samples, cell)
    decreases |samples|
  {
    if samples != [] {
      var init := samples[..|samples| - 1];
      var last := samples[|samples| - 1];
      assert samples == init + [last];
      assert AllResolvable(table, init) by {
        forall i | 0 <= i < |init| ensures Resolvable(table, init[i]) {
          assert init[i] == samples[i];
        }
      }
      GroupIsSelect(table, init);
      forall cell
        ensures Select(table, samples, cell)
             == Select(table, init, cell) + (if CellOf(table, last) == cell then [last.path] else [])
      {
        SelectSnoc(table, init, last, cell);
      }
    }
  }

  // ---------------------------------------------------------------------
  // Conservation: the entries hold one path per sample

  /** Sum of the list lengths over all keys of a map. */
  ghost function TotalLength<K>(m: map<K, seq<FilePath>>): nat
    decreases |m|
  {
    if m == map[] then 0
    else
      var k :| k in m;
      assert |m - {k}| < |m| by {
        assert (m - {k}).Keys == m.Keys - {k};
      }
      |m[k]| + TotalLength(m - {k})
  }

  /** The total does not depend on the key taken out first. */
  lemma {:induction false} TotalLengthRemove<K>(m: map<K, seq<FilePath>>, k: K)
    requires k in m
    ensures TotalLength(m) == |m[k]| + TotalLength(m - {k})
    decreases |m|
  {
    var k' :| k' in m && TotalLength(m) == |m[k']| + TotalLength(m - {k'});
    if k' != k {
      assert (m - {k'}).Keys == m.Keys - {k'};
      assert (m - {k}).Keys == m.Keys - {k};
      TotalLengthRemove(m - {k'}, k);
      TotalLengthRemove(m - {k}, k');
      assert m - {k'} - {k} == m - {k} - {k'};
    }
  }

  lemma TotalLengthUpdate<K>(m: map<K, seq<FilePath>>, k: K, v: seq<FilePath>)
    ensures TotalLength(m[k := v]) == TotalLength(m) - (if k in m then |m[k]| else 0) + |v|
  {
    TotalLengthRemove(m[k := v], k);
    assert m[k := v] - {k} == m - {k};
    if k in m {
      TotalLengthRemove(m, k);
    } else {
      assert m - {k} == m;
    }
  }

  /** The list lengths of the grouping add up to the number of samples. */
  lemma {:induction false} GroupConservation(table: map<int, ClassName>, samples: seq<Sample>)
    requires AllResolvable(table, samples)
    ensures Group(table, samples).Success?
    ensures TotalLength(Group(table, samples).value) == |samples|
    decreases |samples|
  {
    if samples != [] {
      var init := samples[..|samples| - 1];
      var last := samples[|samples| - 1];
      assert AllResolvable(table, init) by {
        forall i | 0 <= i < |init| ensures Resolvable(table, init[i]) {
          assert init[i] == samples[i];
        }
      }
      GroupConservation(table, init);
      var m := Group(table, init).value;
      var cell := CellOf(table, last);
      var paths := if cell in m then m[cell] else [];
      TotalLengthUpdate(m, cell, paths + [last.path]);
    }
  }

  // ---------------------------------------------------------------------
  // Order and membership of the reference selection

  lemma {:induction false} SelectIsSubsequence(table: map<int, ClassName>, samples: seq<Sample>, cell: Cell)
    requires AllResolvable(table, samples)
    ensures IsSubsequence(Select(table, samples, cell), Paths(samples))
    decreases |samples|
  {
    if samples != [] {
      var rest := samples[1..];
      SelectIsSubsequence(table, rest, cell);
      var a := Select(table, samples, cell);
      var b := Paths(samples);
      assert b[0] == samples[0].path;
      assert b[1..] == Paths(rest);
      if CellOf(table, samples[0]) == cell {
        assert a == [samples[0].path] + Select(table, rest, cell);
        assert a[1..] == Select(table, rest, cell);
      } else {
        assert a == Select(table, rest, cell);
        assert b == [b[0]] + Paths(rest);
        SubsequenceCons(a, Paths(rest), b[0]);
      }
    }
  }

  /** The path of every sample is in the selection of its own cell. */
  lemma {:induction false} SelectContains(table: map<int, ClassName>, samples: seq<Sample>, i: nat)
    requires AllResolvable(table, samples) && i < |samples|
    ensures samples[i].path in Select(table, samples, CellOf(table, samples[i]))
    decreases i
  {
    if i > 0 {
      assert samples[1..][i - 1] == samples[i];
      SelectContains(table, samples[1..], i - 1);
    }
  }

  /** A selection holds only paths of samples that fall in its cell. */
  lemma {:induction false} SelectOnlyMatching(table: map<int, ClassName>, samples: seq<Sample>, cell: Cell, p: FilePath)
    requires AllResolvable(table, samples)
    requires p in Select(table, samples, cell)
    ensures exists i :: 0 <= i < |samples| && samples[i].path == p && CellOf(table, samples[i]) == cell
    decreases |samples|
  {
    if !(CellOf(table, samples[0]) == cell && p == samples[0].path) {
      SelectOnlyMatching(table, samples[1..], cell, p);
      var i :| 0 <= i < |samples[1..]| && samples[1..][i].path == p && CellOf(table, samples[1..][i]) == cell;
      assert samples[i + 1] == samples[1..][i];
    }
  }

  // ---------------------------------------------------------------------
  // Properties of the builder

  /** The list lengths across all keys add up to the number of zipped
      (path, prediction, truth) triples. */
  lemma MappingConservation(paths: seq<FilePath>, predictions: seq<int>, truths: seq<int>, classes: seq<ClassName>)
    requires BuildMapping(paths, predictions, truths, classes).Success?
    ensures TotalLength(BuildMapping(paths, predictions, truths, classes).value)
         == Min(|paths|, Min(|predictions|, |truths|))
  {
    var table := ClassTable(classes, DistinctCount(truths)).value;
    GroupConservation(table, Zip(paths, predictions, truths));
  }

  /** No key has an empty list: a cell that no sample falls in has no entry. */
  lemma MappingSparse(paths: seq<FilePath>, predictions: seq<int>, truths: seq<int>, classes: seq<ClassName>)
    requires BuildMapping(paths, predictions, truths, classes).Success?
    ensures forall cell :: cell in BuildMapping(paths, predictions, truths, classes).value ==>
      BuildMapping(paths, predictions, truths, classes).value[cell] != []
  {
    var table := ClassTable(classes, DistinctCount(truths)).value;
    GroupIsSelect(table, Zip(paths, predictions, truths));
  }

  /** Within each key, the paths keep their relative order from `paths`. */
  lemma MappingStableOrder(paths: seq<FilePath>, predictions: seq<int>, truths: seq<int>, classes: seq<ClassName>)
    requires BuildMapping(paths, predictions, truths, classes).Success?
    ensures forall cell :: cell in BuildMapping(paths, predictions, truths, classes).value ==>
      IsSubsequence(BuildMapping(paths, predictions, truths, classes).value[cell], paths)
  {
    var table := ClassTable(classes, DistinctCount(truths)).value;
    var samples := Zip(paths, predictions, truths);
    GroupIsSelect(table, samples);
    assert Paths(samples) + paths[|samples|..] == paths;
    forall cell | cell in BuildMapping(paths, predictions, truths, classes).value
      ensures IsSubsequence(BuildMapping(paths, predictions, truths, classes).value[cell], paths)
    {
      SelectIsSubsequence(table, samples, cell);
      SubsequenceAppend(Select(table, samples, cell), Paths(samples), paths[|samples|..]);
    }
  }

  /** Triple `i` is filed under the cell `(classes[prediction], classes[truth])`,
      and every filed path comes from a triple of that very cell. */
  lemma MappingMembership(paths: seq<FilePath>, predictions: seq<int>, truths: seq<int>, classes: seq<ClassName>)
    requires BuildMapping(paths, predictions, truths, classes).Success?
    ensures forall i :: 0 <= i < Min(|paths|, Min(|predictions|, |truths|)) ==>
      && Cell(classes[predictions[i]], classes[truths[i]]) in BuildMapping(paths, predictions, truths, classes).value
      && paths[i] in BuildMapping(paths, predictions, truths, classes).value[Cell(classes[predictions[i]], classes[truths[i]])]
    ensures forall cell, p ::
      (cell in BuildMapping(paths, predictions, truths, classes).value
       && p in BuildMapping(paths, predictions, truths, classes).value[cell]) ==>
      exists i :: (0 <= i < Min(|paths|, Min(|predictions|, |truths|)) && paths[i] == p
                   && cell == Cell(classes[predictions[i]], classes[truths[i]]))
  {
    var table := ClassTable(classes, DistinctCount(truths)).value;
    var samples := Zip(paths, predictions, truths);
    var m := BuildMapping(paths, predictions, truths, classes).value;
    GroupIsSelect(table, samples);
    forall i | 0 <= i < |samples|
      ensures Cell(classes[predictions[i]], classes[truths[i]]) in m
      ensures paths[i] in m[Cell(classes[predictions[i]], classes[truths[i]])]
    {
      SelectContains(table, samples, i);
    }
    forall cell, p | cell in m && p in m[cell]
      ensures exists i :: (0 <= i < |samples| && paths[i] == p
                           && cell == Cell(classes[predictions[i]], classes[truths[i]]))
    {
      SelectOnlyMatching(table, samples, cell, p);
    }
  }

  /** One step of the grouping loop, on a sample whose indices resolve. */
  lemma GroupStep(table: map<int, ClassName>, init: seq<Sample>, last: Sample)
    requires Group(table, init).Success?
    requires last.prediction in table && last.truth in table
    ensures var m := Group(table, init).value;
      var cell := Cell(table[last.prediction], table[last.truth]);
      && Group(table, init + [last]) == Success(m[cell := (if cell in m then m[cell] else []) + [last.path]])
      && (cell !in m ==> Group(table, init + [last]) == Success(m[cell := [last.path]]))
  {
    assert (init + [last])[..|init|] == init;
    assert [] + [last.path] == [last.path];
  }

  /** A worked example: two classes, three images. The first is a `cat`
      classified correctly, the second a `dog` classified correctly, the
      third a `dog` taken for a `cat`. */
  lemma CatDogExample(a: FilePath, b: FilePath, c: FilePath, cat: ClassName, dog: ClassName)
    requires cat != dog
    ensures BuildMapping([a, b, c], [0, 1, 0], [0, 1, 1], [cat, dog])
         == Success(map[Cell(cat, cat) := [a], Cell(dog, dog) := [b], Cell(cat, dog) := [c]])
  {
    assert (set t | t in [0, 1, 1]) == {0, 1};
    assert DistinctCount([0, 1, 1]) == 2;
    var table := map[0 := cat, 1 := dog];
    assert ClassTable([cat, dog], 2) == Success(table);
    var samples := [Sample(a, 0, 0), Sample(b, 1, 1), Sample(c, 0, 1)];
    assert Zip([a, b, c], [0, 1, 0], [0, 1, 1]) == samples;
    CatDogGrouping(table, samples);
  }

  /** The grouping loop of the worked example, one sample at a time. */
  lemma CatDogGrouping(table: map<int, ClassName>, samples: seq<Sample>)
    requires |samples| == 3 && table.Keys == {0, 1} && table[0] != table[1]
    requires samples[0].prediction == 0 && samples[0].truth == 0
    requires samples[1].prediction == 1 && samples[1].truth == 1
    requires samples[2].prediction == 0 && samples[2].truth == 1
    ensures Group(table, samples) == Success(map[
      Cell(table[0], table[0]) := [samples[0].path],
      Cell(table[1], table[1]) := [samples[1].path],
      Cell(table[0], table[1]) := [samples[2].path]])
  {
    assert Group(table, []) == Success(map[]);
    GroupStep(table, [], samples[0]);
    assert [] + [samples[0]] == samples[..1];
    GroupStep(table, samples[..1], samples[1]);
    assert samples[..1] + [samples[1]] == samples[..2];
    GroupStep(table, samples[..2], samples[2]);
    assert samples[..2] + [samples[2]] == samples;
  }

  // ---------------------------------------------------------------------
  // The lookup table covers only the distinct true indices

  /** The lookup table the builder evidently intends: every position of the
      class-name list. It is the table the `num_to_class` loop builds when
      it runs over all of `classes`. */
  function FullClassTable(classes: seq<ClassName>): (table: map<int, ClassName>)
    ensures ClassTable(classes, |classes|) == Success(table)
  {
    var full := map c | 0 <= c < |classes| :: classes[c];
    var built := ClassTable(classes, |classes|).value;
    assert built.Keys == full.Keys;
    assert forall c :: c in full ==> built[c] == full[c];
    assert built == full;
    full
  }

  /** The builder with the full lookup table. It fails only on an index that
      is not a position of `classes`, whichever classes occur among the
      truths. */
  function BuildMappingIntended(paths: seq<FilePath>, predictions: seq<int>, truths: seq<int>, classes: seq<ClassName>)
    : (r: Result<Mapping, MappingError>)
    ensures r.Success? <==>
      forall i :: 0 <= i < Min(|paths|, Min(|predictions|, |truths|)) ==>
        0 <= predictions[i] < |classes| && 0 <= truths[i] < |classes|
  {
    var samples := Zip(paths, predictions, truths);
    assert AllResolvable(FullClassTable(classes), samples) <==>
      forall i :: 0 <= i < |samples| ==> 0 <= predictions[i] < |classes| && 0 <= truths[i] < |classes|;
    Group(FullClassTable(classes), samples)
  }

  /** A one-image test set whose only true class is `cat`, predicted as
      `dog`: the builder as written raises `KeyError(1)`, since the lookup
      table only covers index 0, while the intended builder files the image
      under (`dog`, `cat`). */
  lemma UnseenPredictionCounterexample()
    ensures BuildMapping(["a"], [1], [0], ["cat", "dog"]) == Failure(KeyError(1))
    ensures BuildMappingIntended(["a"], [1], [0], ["cat", "dog"]) == Success(map[Cell("dog", "cat") := ["a"]])
  {
    assert (set t | t in [0]) == {0};
    var samples := Zip(["a"], [1], [0]);
    assert samples == [Sample("a", 1, 0)];
    assert samples[..0] == [];
    var full := FullClassTable(["cat", "dog"]);
    assert full[1] == "dog" && full[0] == "cat";
    assert Group(full, []) == Success(map[]);
    assert Group(full, samples).value == map[Cell("dog", "cat") := [] + ["a"]];
    assert [] + ["a"] == ["a"];
  }

  /** Grouping with a larger table that agrees on the smaller one's keys
      gives the same result whenever the smaller one suffices. */
  lemma {:induction false} GroupSubTable(small: map<int, ClassName>, large: map<int, ClassName>, samples: seq<Sample>)
    requires forall c :: c in small ==> c in large && large[c] == small[c]
    requires AllResolvable(small, samples)
    ensures Group(large, samples) == Group(small, samples)
    decreases |samples|
  {
    if samples != [] {
      var init := samples[..|samples| - 1];
      assert AllResolvable(small, init) by {
        forall i | 0 <= i < |init| ensures Resolvable(small, init[i]) {
          assert init[i] == samples[i];
        }
      }
      GroupSubTable(small, large, init);
    }
  }

  /** Wherever the builder as written succeeds, the intended one returns the
      same mapping: the two differ only on inputs the former rejects. */
  lemma IntendedAgreesWithAsWritten(paths: seq<FilePath>, predictions: seq<int>, truths: seq<int>, classes: seq<ClassName>)
    requires BuildMapping(paths, predictions, truths, classes).Success?
    ensures BuildMappingIntended(paths, predictions, truths, classes) == BuildMapping(paths, predictions, truths, classes)
  {
    var table := ClassTable(classes, DistinctCount(truths)).value;
    var samples := Zip(paths, predictions, truths);
    GroupSubTable(table, FullClassTable(classes), samples);
  }

  /** The intended builder keeps the promises of the one as written, on
      every input whose indices are positions of `classes`: one path per
      zipped triple, and triple `i` filed under the names at its indices. */
  lemma IntendedMappingConserves(paths: seq<FilePath>, predictions: seq<int>, truths: seq<int>, classes: seq<ClassName>)
    requires BuildMappingIntended(paths, predictions, truths, classes).Success?
    ensures TotalLength(BuildMappingIntended(paths, predictions, truths, classes).value)
         == Min(|paths|, Min(|predictions|, |truths|))
    ensures forall i :: 0 <= i < Min(|paths|, Min(|predictions|, |truths|)) ==>
      && Cell(classes[predictions[i]], classes[truths[i]]) in BuildMappingIntended(paths, predictions, truths, classes).value
      && paths[i] in BuildMappingIntended(paths, predictions, truths, classes).value[Cell(classes[predictions[i]], classes[truths[i]])]
  {
    var table := FullClassTable(classes);
    var samples := Zip(paths, predictions, truths);
    GroupConservation(table, samples);
    GroupIsSelect(table, samples);
    forall i | 0 <= i < |samples|
      ensures samples[i].path in Select(table, samples, CellOf(table, samples[i]))
    {
      SelectContains(table, samples, i);
    }
  }
}

=== FILE: dataset_split.dfy ===
/** The dataset splitter of transfer_learning.py
    (`create_training_testing_split`), reduced to its deterministic control
    logic: the early return when the train directory exists, the class
    filter, the directories it creates, and the global `image_id` counter
    that names every copied file. The filesystem is an abstract state (a set
    of directories and a map from destination file to source path);
    `os.listdir` answers come from a read-only `Dataset` snapshot, and
    `sklearn.model_selection.train_test_split` is an oracle parameter. */
module DatasetSplit {
  import opened Results
  import opened Sequences

  type Dir = string
  type ClassName = string
  type FileName = string

  /** The root that every listing and every source path is relative to. */
  const DatasetRoot: Dir := "dataset"

  /** The destination `<partition>/<cls>/<id>.jpg` of a copy. */
  datatype Dest = Dest(partition: Dir, cls: ClassName, id: nat)

  /** One `copyfile(source, dest)` call. */
  datatype Copy = Copy(source: string, dest: Dest)

  /** The part of the filesystem the splitter changes: the directories that
      exist, and the copied files with the source each was copied from. */
  datatype FileSystem = FileSystem(dirs: set<Dir>, files: map<Dest, string>)

  /** The listings the splitter reads: `os.listdir("dataset")` and, for each
      entry that is a directory, `os.listdir("dataset/<entry>")`. */
  datatype Dataset = Dataset(entries: seq<string>, contents: map<string, seq<FileName>>)

  /** The keyword arguments of `create_training_testing_split`. */
  datatype SplitConfig = SplitConfig(
    testFraction: real,
    validationFraction: real,
    classes: seq<ClassName>,
    trainDir: Dir,
    testDir: Dir,
    valDir: Dir)

  /** The two parts `train_test_split` returns, train part first. */
  datatype Halves = Halves(train: seq<FileName>, test: seq<FileName>)

  /** `train_test_split(files, test_size = fraction, random_state = 42)`;
      `None` when it raises (for instance on an empty file list). */
  type SplitOracle = (seq<FileName>, real) -> Option<Halves>

  /** The exceptions the splitter can raise. */
  datatype SplitError =
    | FileExists(dir: Dir)        // `os.mkdir` of a directory that exists
    | NotADirectory(path: string) // `os.listdir` of a dataset entry that is a plain file
    | SplitFailed(cls: ClassName) // `train_test_split` raised on the files of a class

  /** The state of one call: the filesystem, the `image_id` counter, the
      `copyfile` calls made so far in order, and the exception that ended the
      call, if any. Copies made before an exception stay on disk. */
  datatype Run = Run(fs: FileSystem, imageId: nat, log: seq<Copy>, error: Option<SplitError>)

  /** `"%s/%s" % (partition, cls)`. */
  function SubDir(partition: Dir, cls: ClassName): Dir
  {
    partition + "/" + cls
  }

  /** `"dataset/%s/%s" % (cls, file)`. */
  function SourcePath(cls: ClassName, file: FileName): string
  {
    DatasetRoot + "/" + cls + "/" + file
  }

  /** The filesystem after a sequence of copies, each overwriting whatever
      its destination held. */
  function Apply(files: map<Dest, string>, log: seq<Copy>): map<Dest, string>
    decreases |log|
  {
    if log == [] then files
    else Apply(files[log[0].dest := log[0].source], log[1..])
  }

  /** The destinations written by a sequence of copies. */
  function Dests(log: seq<Copy>): set<Dest>
  {
    set i | 0 <= i < |log| :: log[i].dest
  }

  /** `r` continues `run`: it keeps the copies already made, numbers every
      new copy on from `run`'s counter, and its filesystem is `run`'s after
      the new copies, with no directory removed. */
  ghost predicate Extends(run: Run, r: Run)
  {
    && |run.log| <= |r.log| && r.log[..|run.log|] == run.log
    && r.imageId == run.imageId + (|r.log| - |run.log|)
    && (forall j :: |run.log| <= j < |r.log| ==> r.log[j].dest.id == run.imageId + 1 + (j - |run.log|))
    && r.fs.files == Apply(run.fs.files, r.log[|run.log|..])
    && run.fs.dirs <= r.fs.dirs
  }

  /** The directories of class `cls` in the three partitions. */
  function ClassDirs(cfg: SplitConfig, cls: ClassName): set<Dir>
  {
    {SubDir(cfg.trainDir, cls), SubDir(cfg.testDir, cls), SubDir(cfg.valDir, cls)}
  }

  predicate DistinctPartitions(cfg: SplitConfig)
  {
    cfg.trainDir != cfg.testDir && cfg.trainDir != cfg.valDir && cfg.testDir != cfg.valDir
  }

  /** The place of a partition in the copy order: train, test, validation. */
  function PartitionRank(cfg: SplitConfig, partition: Dir): nat
  {
    if partition == cfg.trainDir then 0 else if partition == cfg.testDir then 1 else 2
  }

  /** `os.mkdir(d)`, which raises when `d` exists. A call that has already
      raised does nothing more. */
  function MakeDir(run: Run, d: Dir): (r: Run)
    ensures r.log == run.log && r.imageId == run.imageId && r.fs.files == run.fs.files
    ensures r.error.None? <==> run.error.None? && d !in run.fs.dirs
    ensures r.error.None? ==> r.fs.dirs == run.fs.dirs + {d}
    ensures r.error.Some? ==> r.fs.dirs == run.fs.dirs
    ensures run.fs.dirs <= r.fs.dirs <= run.fs.dirs + {d}
    ensures run.error.Some? ==> r == run
    ensures run.error.None? && d in run.fs.dirs ==> r.error == Some(FileExists(d))
  {
    if run.error.Some? then run
    else if d in run.fs.dirs then run.(error := Some(FileExists(d)))
    else run.(fs := run.fs.(dirs := run.fs.dirs + {d}))
  }

  /** The three `os.mkdir` calls of the partition directories, train, test,
      validation, on a fresh call with `image_id` at 0. They succeed exactly
      when the three are distinct and none exists yet. */
  function MakePartitionDirs(fs: FileSystem, cfg: SplitConfig): (r: Run)
    ensures r.log == [] && r.imageId == 0 && r.fs.files == fs.files
    ensures fs.dirs <= r.fs.dirs <= fs.dirs + {cfg.trainDir, cfg.testDir, cfg.valDir}
    ensures cfg.trainDir !in fs.dirs ==> cfg.trainDir in r.fs.dirs
    ensures r.error.None? <==>
      DistinctPartitions(cfg) && cfg.trainDir !in fs.dirs && cfg.testDir !in fs.dirs && cfg.valDir !in fs.dirs
    ensures r.error.None? ==> r.fs.dirs == fs.dirs + {cfg.trainDir, cfg.testDir, cfg.valDir}
    ensures cfg.trainDir in fs.dirs ==>
      r.error == Some(FileExists(cfg.trainDir)) && r.fs.dirs == fs.dirs
    ensures cfg.trainDir !in fs.dirs && cfg.testDir in fs.dirs + {cfg.trainDir} ==>
      r.error == Some(FileExists(cfg.testDir)) && r.fs.dirs == fs.dirs + {cfg.trainDir}
    ensures (cfg.trainDir !in fs.dirs && cfg.testDir !in fs.dirs + {cfg.trainDir}
             && cfg.valDir in fs.dirs + {cfg.trainDir, cfg.testDir}) ==>
      r.error == Some(FileExists(cfg.valDir)) && r.fs.dirs == fs.dirs + {cfg.trainDir, cfg.testDir}
  {
    var m1 := MakeDir(Run(fs, 0, [], None), cfg.trainDir);
    var m2 := MakeDir(m1, cfg.testDir);
    MakeDir(m2, cfg.valDir)
  }

  /** `[i for i in dirs if i in classes]`: the listing entries that are also
      requested classes, in listing order. */
  function FilterClasses(entries: seq<string>, classes: seq<ClassName>): (r: seq<ClassName>)
    ensures forall x :: x in r <==> x in entries && x in classes
    ensures IsSubsequence(r, entries)
    ensures Distinct(entries) ==> Distinct(r)
  {
    if entries == [] then []
    else if entries[0] in classes then
      var rest := FilterClasses(entries[1..], classes);
      assert forall x :: x in rest ==> x in entries[1..];
      [entries[0]] + rest
    else
      var rest := FilterClasses(entries[1..], classes);
      assert entries == [entries[0]] + entries[1..];
      SubsequenceCons(rest, entries[1..], entries[0]);
      rest
  }

  /** The copies one copy loop makes of `names` when the counter stands at
      `lastId`: the `i`-th file goes to id `lastId + 1 + i`. */
  function Numbered(partition: Dir, cls: ClassName, lastId: nat, names: seq<FileName>): seq<Copy>
  {
    seq(|names|, i requires 0 <= i < |names| => Copy(SourcePath(cls, names[i]), Dest(partition, cls, lastId + 1 + i)))
  }

  /** The copies of one class: its train part into the train directory,
      then its test part into the test directory, then its validation part
      into the validation directory, numbered on from `lastId`. */
  function PartitionLog(cfg: SplitConfig, cls: ClassName, lastId: nat, train: seq<FileName>, test: seq<FileName>, val: seq<FileName>)
    : seq<Copy>
  {
    Numbered(cfg.trainDir, cls, lastId, train)
      + Numbered(cfg.testDir, cls, lastId + |train|, test)
      + Numbered(cfg.valDir, cls, lastId + |train| + |test|, val)
  }

  /** `run` after the copies `added`, with the counter advanced past them. */
  function AfterCopies(run: Run, added: seq<Copy>): Run
  {
    run.(fs := run.fs.(files := Apply(run.fs.files, added)), imageId := run.imageId + |added|, log := run.log + added)
  }

  /** The copy loop over one partition: for each file, increment `image_id`,
      then copy the file to `<partition>/<cls>/<image_id>.jpg`. The loop
      makes exactly the copies `Numbered` lists. */
  function CopyFiles(run: Run, partition: Dir, cls: ClassName, names: seq<FileName>): (r: Run)
    requires run.error.None?
    ensures r == AfterCopies(run, Numbered(partition, cls, run.imageId, names))
    decreases |names|
  {
    if names == [] then
      assert run.log + [] == run.log;
      run
    else
      var id := run.imageId + 1;
      var c := Copy(SourcePath(cls, names[0]), Dest(partition, cls, id));
      var next := Run(run.fs.(files := run.fs.files[c.dest := c.source]), id, run.log + [c], None);
      var r := CopyFiles(next, partition, cls, names[1..]);
      NumberedCons(partition, cls, run.imageId, names);
      var added := Numbered(partition, cls, run.imageId, names);
      assert added[0] == c && added[1..] == Numbered(partition, cls, id, names[1..]);
      assert run.log + added == next.log + added[1..];
      r
  }

  lemma NumberedCons(partition: Dir, cls: ClassName, lastId: nat, names: seq<FileName>)
    requires names != []
    ensures Numbered(partition, cls, lastId, names)
         == [Copy(SourcePath(cls, names[0]), Dest(partition, cls, lastId + 1))] + Numbered(partition, cls, lastId + 1, names[1..])
  {
  }

  /** Lines creating the class directories: when `<trainDir>/<cls>` is
      missing, `os.mkdir` the class directory in each partition, train first.
      The test and validation calls raise when their directory exists,
      or when it coincides with one made just before. */
  function MakeClassDirs(run: Run, cfg: SplitConfig, cls: ClassName): (r: Run)
    ensures r.log == run.log && r.imageId == run.imageId && r.fs.files == run.fs.files
    ensures run.fs.dirs <= r.fs.dirs
    ensures r.fs.dirs <= run.fs.dirs + ClassDirs(cfg, cls)
    ensures run.error.Some? ==> r == run
    ensures run.error.None? && SubDir(cfg.trainDir, cls) in run.fs.dirs ==> r == run
    ensures run.error.None? && SubDir(cfg.trainDir, cls) !in run.fs.dirs ==>
      (r.error.None? <==>
        && SubDir(cfg.testDir, cls) !in run.fs.dirs + {SubDir(cfg.trainDir, cls)}
        && SubDir(cfg.valDir, cls) !in run.fs.dirs + {SubDir(cfg.trainDir, cls), SubDir(cfg.testDir, cls)})
    ensures run.error.None? && SubDir(cfg.trainDir, cls) !in run.fs.dirs && r.error.None? ==>
      r.fs.dirs == run.fs.dirs + ClassDirs(cfg, cls)
    ensures run.error.None? && r.error.Some? ==> r.error.value.FileExists? && r.error.value.dir in ClassDirs(cfg, cls)
    ensures (run.error.None? && SubDir(cfg.trainDir, cls) !in run.fs.dirs
             && SubDir(cfg.testDir, cls) in run.fs.dirs + {SubDir(cfg.trainDir, cls)}) ==>
      && r.error == Some(FileExists(SubDir(cfg.testDir, cls)))
      && r.fs.dirs == run.fs.dirs + {SubDir(cfg.trainDir, cls)}
    ensures (run.error.None? && SubDir(cfg.trainDir, cls) !in run.fs.dirs
             && SubDir(cfg.testDir, cls) !in run.fs.dirs + {SubDir(cfg.trainDir, cls)}
             && SubDir(cfg.valDir, cls) in run.fs.dirs + {SubDir(cfg.trainDir, cls), SubDir(cfg.testDir, cls)}) ==>
      && r.error == Some(FileExists(SubDir(cfg.valDir, cls)))
      && r.fs.dirs == run.fs.dirs + {SubDir(cfg.trainDir, cls), SubDir(cfg.testDir, cls)}
  {
    if SubDir(cfg.trainDir, cls) in run.fs.dirs then run
    else MakeDir(MakeDir(MakeDir(run, SubDir(cfg.trainDir, cls)), SubDir(cfg.testDir, cls)), SubDir(cfg.valDir, cls))
  }

  /** The three copy loops of one class: train part, test part, validation
      part, in that order, numbering on from the current `image_id`. */
  function CopyPartitions(run: Run, cfg: SplitConfig, cls: ClassName, train: seq<FileName>, test: seq<FileName>, val: seq<FileName>)
    : (r: Run)
    requires run.error.None?
    ensures r == AfterCopies(run, PartitionLog(cfg, cls, run.imageId, train, test, val))
  {
    var afterTrain := CopyFiles(run, cfg.trainDir, cls, train);
    var afterTest := CopyFiles(afterTrain, cfg.testDir, cls, test);
    var afterVal := CopyFiles(afterTest, cfg.valDir, cls, val);
    var n1 := Numbered(cfg.trainDir, cls, run.imageId, train);
    var n2 := Numbered(cfg.testDir, cls, run.imageId + |train|, test);
    var n3 := Numbered(cfg.valDir, cls, run.imageId + |train| + |test|, val);
    assert afterTrain == AfterCopies(run, n1);
    assert afterTest == AfterCopies(AfterCopies(run, n1), n2);
    AfterCopiesAppend(run, n1, n2);
    assert afterVal == AfterCopies(AfterCopies(run, n1 + n2), n3);
    AfterCopiesAppend(run, n1 + n2, n3);
    afterVal
  }

  /** The copies of a class are numbered on from `lastId`, one id each, and
      all go into directories of that class. */
  lemma PartitionLogNumbering(cfg: SplitConfig, cls: ClassName, lastId: nat, train: seq<FileName>, test: seq<FileName>, val: seq<FileName>)
    ensures var log := PartitionLog(cfg, cls, lastId, train, test, val);
      forall j :: 0 <= j < |log| ==> log[j].dest.id == lastId + 1 + j && log[j].dest.cls == cls
  {
  }

  /** Copies made in two rounds are the copies of both rounds made at once. */
  lemma AfterCopiesAppend(run: Run, a: seq<Copy>, b: seq<Copy>)
    ensures AfterCopies(AfterCopies(run, a), b) == AfterCopies(run, a + b)
  {
    ApplyAppend(run.fs.files, a, b);
    assert run.log + a + b == run.log + (a + b);
  }

  /** The copies of one class, made after the class directories were
      created, extend the run as it was before those directories, and all
      land in directories of that class. */
  lemma CopyPartitionsExtends(
    run: Run, made: Run, cfg: SplitConfig, cls: ClassName, train: seq<FileName>, test: seq<FileName>, val: seq<FileName>)
    requires made.error.None? && made.log == run.log && made.imageId == run.imageId && made.fs.files == run.fs.files
    requires run.fs.dirs <= made.fs.dirs
    ensures var r := CopyPartitions(made, cfg, cls, train, test, val);
      && Extends(run, r)
      && r.error.None? && r.fs.dirs == made.fs.dirs
      && forall j :: |run.log| <= j < |r.log| ==> r.log[j].dest.cls == cls
  {
    var added := PartitionLog(cfg, cls, run.imageId, train, test, val);
    var r := AfterCopies(made, added);
    PartitionLogNumbering(cfg, cls, run.imageId, train, test, val);
    assert r.log[..|run.log|] == run.log;
    assert r.log[|run.log|..] == added;
  }

  /** The `j`-th copy of a class takes the `j`-th file of train ++ test ++
      validation, and goes to the train directory for the train part, the
      test directory for the test part, and the validation directory for
      the rest. */
  lemma PartitionLogLayout(cfg: SplitConfig, cls: ClassName, lastId: nat, train: seq<FileName>, test: seq<FileName>, val: seq<FileName>)
    ensures var log := PartitionLog(cfg, cls, lastId, train, test, val);
      && |log| == |train| + |test| + |val|
      && Sources(log) == SourcePaths(cls, train + test + val)
      && forall j :: 0 <= j < |log| ==>
        log[j].dest.partition ==
          if j < |train| then cfg.trainDir else if j < |train| + |test| then cfg.testDir else cfg.valDir
  {
    var log := PartitionLog(cfg, cls, lastId, train, test, val);
    var all := train + test + val;
    forall j | 0 <= j < |log|
      ensures log[j].source == SourcePath(cls, all[j])
    {
      if j < |train| {
        assert all[j] == train[j];
      } else if j < |train| + |test| {
        assert all[j] == test[j - |train|];
      } else {
        assert all[j] == val[j - |train| - |test|];
      }
    }
    assert Sources(log) == SourcePaths(cls, all);
  }

  /** One iteration of the class loop: create the class directories, list
      the class's files, split them twice (both times with the test
      fraction: the second split's test part becomes the validation part),
      then copy the train, the test and the validation part. */
  function ProcessClass(run: Run, ds: Dataset, cfg: SplitConfig, oracle: SplitOracle, cls: ClassName): (r: Run)
    requires run.error.None?
    ensures Extends(run, r)
    ensures forall j :: |run.log| <= j < |r.log| ==> r.log[j].dest.cls == cls
    ensures r.fs.dirs <= run.fs.dirs + ClassDirs(cfg, cls)
    ensures r.error.Some? ==> r.log == run.log
    ensures r.error.None? ==>
      && cls in ds.contents
      && oracle(ds.contents[cls], cfg.testFraction).Some?
      && oracle(oracle(ds.contents[cls], cfg.testFraction).value.train, cfg.testFraction).Some?
      && var first := oracle(ds.contents[cls], cfg.testFraction).value;
         var second := oracle(first.train, cfg.testFraction).value;
         r.log[|run.log|..] == PartitionLog(cfg, cls, run.imageId, second.train, first.test, second.test)
    ensures r.error.None? <==>
      && MakeClassDirs(run, cfg, cls).error.None?
      && cls in ds.contents
      && oracle(ds.contents[cls], cfg.testFraction).Some?
      && oracle(oracle(ds.contents[cls], cfg.testFraction).value.train, cfg.testFraction).Some?
    ensures MakeClassDirs(run, cfg, cls).error.Some? ==> r == MakeClassDirs(run, cfg, cls)
    ensures MakeClassDirs(run, cfg, cls).error.None? && cls !in ds.contents ==>
      r.error == Some(NotADirectory(DatasetRoot + "/" + cls))
    ensures MakeClassDirs(run, cfg, cls).error.None? && cls in ds.contents && r.error.Some? ==>
      r.error == Some(SplitFailed(cls))
    ensures r.error.Some? ==> r.fs.dirs == MakeClassDirs(run, cfg, cls).fs.dirs
  {
    var made := MakeClassDirs(run, cfg, cls);
    if made.error.Some? then made
    else if cls !in ds.contents then made.(error := Some(NotADirectory(DatasetRoot + "/" + cls)))
    else
      var files := ds.contents[cls];
      match oracle(files, cfg.testFraction)
      case None => made.(error := Some(SplitFailed(cls)))
      case Some(first) =>
        match oracle(first.train, cfg.testFraction)
        case None => made.(error := Some(SplitFailed(cls)))
        case Some(second) =>
          CopyPartitionsExtends(run, made, cfg, cls, second.train, first.test, second.test);
          CopyPartitions(made, cfg, cls, second.train, first.test, second.test)
  }

  /** The class loop, stopping at the first exception. */
  function ProcessClasses(run: Run, ds: Dataset, cfg: SplitConfig, oracle: SplitOracle, todo: seq<ClassName>): (r: Run)
    ensures Extends(run, r)
    ensures forall j :: |run.log| <= j < |r.log| ==> r.log[j].dest.cls in todo
    ensures forall d :: d in r.fs.dirs ==> d in run.fs.dirs || exists c :: c in todo && d in ClassDirs(cfg, c)
    ensures run.error.Some? ==> r == run
    decreases |todo|
  {
    if todo == [] || run.error.Some? then run
    else
      var next := ProcessClass(run, ds, cfg, oracle, todo[0]);
      var r := ProcessClasses(next, ds, cfg, oracle, todo[1..]);
      ExtendsTransitive(run, next, r);
      assert forall x :: x in todo[1..] ==> x in todo;
      ClassInExtension(run, next, r, todo);
      r
  }

  /** The class loop stops at the first exception: a loop that raises ends
      in the state of the first class iteration that raised, after the
      classes before it all went through. */
  lemma {:induction false} ProcessClassesStopsAtFirstError(
    run: Run, ds: Dataset, cfg: SplitConfig, oracle: SplitOracle, todo: seq<ClassName>)
    ensures var r := ProcessClasses(run, ds, cfg, oracle, todo);
      run.error.None? && r.error.Some? ==>
        exists k :: 0 <= k < |todo|
          && ProcessClasses(run, ds, cfg, oracle, todo[..k]).error.None?
          && r == ProcessClass(ProcessClasses(run, ds, cfg, oracle, todo[..k]), ds, cfg, oracle, todo[k])
    decreases |todo|
  {
    var r := ProcessClasses(run, ds, cfg, oracle, todo);
    if run.error.None? && r.error.Some? {
      assert todo != [];
      var next := ProcessClass(run, ds, cfg, oracle, todo[0]);
      assert r == ProcessClasses(next, ds, cfg, oracle, todo[1..]);
      assert ProcessClasses(run, ds, cfg, oracle, todo[..0]) == run by {
        assert todo[..0] == [];
      }
      if next.error.None? {
        ProcessClassesStopsAtFirstError(next, ds, cfg, oracle, todo[1..]);
        var k :| 0 <= k < |todo[1..]|
          && ProcessClasses(next, ds, cfg, oracle, todo[1..][..k]).error.None?
          && r == ProcessClass(ProcessClasses(next, ds, cfg, oracle, todo[1..][..k]), ds, cfg, oracle, todo[1..][k]);
        var prefix := todo[..k + 1];
        PrefixOfTail(todo, k);
        assert ProcessClasses(run, ds, cfg, oracle, prefix) == ProcessClasses(next, ds, cfg, oracle, todo[1..][..k]);
        assert todo[k + 1] == todo[1..][k];
        assert ProcessClasses(run, ds, cfg, oracle, todo[..k + 1]).error.None?
          && r == ProcessClass(ProcessClasses(run, ds, cfg, oracle, todo[..k + 1]), ds, cfg, oracle, todo[k + 1]);
      } else {
        assert r == next;
        assert ProcessClasses(run, ds, cfg, oracle, todo[..0]).error.None?
          && r == ProcessClass(ProcessClasses(run, ds, cfg, oracle, todo[..0]), ds, cfg, oracle, todo[0]);
      }
    }
  }

  /** `create_training_testing_split`. When `trainDir` exists it returns at
      once and changes nothing; otherwise it creates the three partition
      directories and runs the class loop over the filtered listing. Every
      copy lands at the id that is its position in the call order plus one,
      and its class is both listed and requested. */
  function CreateSplit(fs: FileSystem, ds: Dataset, cfg: SplitConfig, oracle: SplitOracle): (r: Run)
    ensures cfg.trainDir in fs.dirs ==> r.fs == fs && r.log == [] && r.error.None?
    ensures cfg.trainDir !in fs.dirs ==> cfg.trainDir in r.fs.dirs
    ensures r.imageId == |r.log|
    ensures forall i :: 0 <= i < |r.log| ==> r.log[i].dest.id == i + 1
    ensures r.fs.files == Apply(fs.files, r.log)
    ensures fs.dirs <= r.fs.dirs
    ensures forall i :: 0 <= i < |r.log| ==> r.log[i].dest.cls in ds.entries && r.log[i].dest.cls in cfg.classes
    ensures cfg.trainDir !in fs.dirs && r.error.None? ==> {cfg.trainDir, cfg.testDir, cfg.valDir} <= r.fs.dirs
  {
    if cfg.trainDir in fs.dirs then Run(fs, 0, [], None)
    else
      var made := MakePartitionDirs(fs, cfg);
      var r := ProcessClasses(made, ds, cfg, oracle, FilterClasses(ds.entries, cfg.classes));
      assert r.log[0..] == r.log;
      r
  }

  /** The class loop over `todo` raised at class `todo[k]`, for some `k`:
      the classes before it went through without an exception, and `r` is
      the state the iteration of `todo[k]` left. */
  ghost predicate RaisedAtClass(run: Run, ds: Dataset, cfg: SplitConfig, oracle: SplitOracle, todo: seq<ClassName>, r: Run)
  {
    exists k :: 0 <= k < |todo|
      && ProcessClasses(run, ds, cfg, oracle, todo[..k]).error.None?
      && r == ProcessClass(ProcessClasses(run, ds, cfg, oracle, todo[..k]), ds, cfg, oracle, todo[k])
  }

  /** A split that raises does so in one of the partition `os.mkdir` calls,
      and then nothing else happened, or in the first class iteration that
      raised, whose exception `ProcessClass` ties to a class `os.mkdir`, a
      class listing or a `train_test_split` call. */
  lemma CreateSplitStopsAtFirstError(fs: FileSystem, ds: Dataset, cfg: SplitConfig, oracle: SplitOracle)
    ensures var r := CreateSplit(fs, ds, cfg, oracle);
      var made := MakePartitionDirs(fs, cfg);
      r.error.Some? ==>
        && cfg.trainDir !in fs.dirs
        && ((made.error.Some? && r == made)
            || (made.error.None? && RaisedAtClass(made, ds, cfg, oracle, FilterClasses(ds.entries, cfg.classes), r)))
  {
    var made := MakePartitionDirs(fs, cfg);
    if cfg.trainDir !in fs.dirs && made.error.None? {
      ProcessClassesStopsAtFirstError(made, ds, cfg, oracle, FilterClasses(ds.entries, cfg.classes));
    }
  }

  // ---------------------------------------------------------------------
  // Composing extensions

  /** Extending an extension extends the original. */
  lemma ExtendsTransitive(a: Run, b: Run, c: Run)
    requires Extends(a, b) && Extends(b, c)
    ensures Extends(a, c)
  {
    assert c.log[..|a.log|] == c.log[..|b.log|][..|a.log|];
    forall j | |b.log| > j >= |a.log|
      ensures c.log[j] == b.log[j]
    {
      assert c.log[..|b.log|][j] == c.log[j];
    }
    assert c.log[|a.log|..] == b.log[|a.log|..] + c.log[|b.log|..];
    ApplyAppend(a.fs.files, b.log[|a.log|..], c.log[|b.log|..]);
  }

  lemma KeepsPrefix(a: Run, b: Run)
    requires |a.log| <= |b.log| && b.log[..|a.log|] == a.log
    ensures forall j :: 0 <= j < |a.log| ==> b.log[j] == a.log[j]
  {
    assert forall j :: 0 <= j < |a.log| ==> b.log[..|a.log|][j] == b.log[j];
  }

  lemma ClassInExtension(a: Run, b: Run, c: Run, todo: seq<ClassName>)
    requires Extends(a, b) && Extends(b, c) && todo != []
    requires forall j :: |a.log| <= j < |b.log| ==> b.log[j].dest.cls == todo[0]
    requires forall j :: |b.log| <= j < |c.log| ==> c.log[j].dest.cls in todo[1..]
    ensures forall j :: |a.log| <= j < |c.log| ==> c.log[j].dest.cls in todo
  {
    forall j | |a.log| <= j < |b.log|
      ensures c.log[j] == b.log[j]
    {
      assert c.log[..|b.log|][j] == c.log[j];
    }
  }

  // ---------------------------------------------------------------------
  // The filesystem after a sequence of copies

  lemma {:induction false} ApplyAppend(files: map<Dest, string>, a: seq<Copy>, b: seq<Copy>)
    ensures Apply(files, a + b) == Apply(Apply(files, a), b)
    decreases |a|
  {
    if a == [] {
      assert a + b == b;
    } else {
      assert (a + b)[0] == a[0];
      assert (a + b)[1..] == a[1..] + b;
      ApplyAppend(files[a[0].dest := a[0].source], a[1..], b);
    }
  }

  /** When no two copies share a destination, every copied file holds its
      own source, and every other file is as it was. */
  lemma {:induction false} ApplyDistinct(files: map<Dest, string>, log: seq<Copy>)
    requires forall i, j :: 0 <= i < j < |log| ==> log[i].dest != log[j].dest
    ensures forall i :: 0 <= i < |log| ==> log[i].dest in Apply(files, log) && Apply(files, log)[log[i].dest] == log[i].source
    ensures forall d :: d !in Dests(log) ==> (d in Apply(files, log) <==> d in files)
    ensures forall d :: d !in Dests(log) && d in files ==> Apply(files, log)[d] == files[d]
    decreases |log|
  {
    if log != [] {
      var m := files[log[0].dest := log[0].source];
      var rest := log[1..];
      ApplyDistinct(m, rest);
      assert forall i :: 0 <= i < |rest| ==> rest[i] == log[i + 1];
      assert log[0].dest !in Dests(rest);
      assert log[0].dest in Dests(log);
    }
  }

  /** A run whose copies are numbered 1 .. N never overwrites one of its
      own copies. */
  lemma NumberedCopiesLandIntact(files: map<Dest, string>, r: Run)
    requires r.fs.files == Apply(files, r.log)
    requires forall i :: 0 <= i < |r.log| ==> r.log[i].dest.id == i + 1
    ensures forall i :: 0 <= i < |r.log| ==> r.log[i].dest in r.fs.files && r.fs.files[r.log[i].dest] == r.log[i].source
    ensures forall d :: d !in Dests(r.log) ==> (d in r.fs.files <==> d in files)
    ensures forall d :: d !in Dests(r.log) && d in files ==> r.fs.files[d] == files[d]
  {
    assert forall i, j :: 0 <= i < j < |r.log| ==> r.log[i].dest.id != r.log[j].dest.id;
    ApplyDistinct(files, r.log);
  }

  /** The splitter never overwrites one of its own copies: each destination
      ends up holding the source copied to it, and files outside the copied
      destinations keep their contents. */
  lemma CopiesLandIntact(fs: FileSystem, ds: Dataset, cfg: SplitConfig, oracle: SplitOracle)
    ensures var r := CreateSplit(fs, ds, cfg, oracle);
      forall i :: 0 <= i < |r.log| ==> r.log[i].dest in r.fs.files && r.fs.files[r.log[i].dest] == r.log[i].source
    ensures var r := CreateSplit(fs, ds, cfg, oracle);
      forall d :: d !in Dests(r.log) ==> (d in r.fs.files <==> d in fs.files)
    ensures var r := CreateSplit(fs, ds, cfg, oracle);
      forall d :: d !in Dests(r.log) && d in fs.files ==> r.fs.files[d] == fs.files[d]
  {
    var r := CreateSplit(fs, ds, cfg, oracle);
    NumberedCopiesLandIntact(fs.files, r);
  }

  /** The ids of the copies are exactly 1 .. N, strictly increasing in call
      order, so no two copies share a destination. */
  lemma IdsUniqueAndIncreasing(fs: FileSystem, ds: Dataset, cfg: SplitConfig, oracle: SplitOracle)
    ensures var r := CreateSplit(fs, ds, cfg, oracle);
      forall i, j :: 0 <= i < j < |r.log| ==> r.log[i].dest.id < r.log[j].dest.id
    ensures var r := CreateSplit(fs, ds, cfg, oracle);
      forall i, j :: 0 <= i < j < |r.log| ==> r.log[i].dest != r.log[j].dest
  {
  }

  // ---------------------------------------------------------------------
  // Order of the copies

  /** Copy `a` may precede copy `b`: its class comes earlier in `order`, or
      it is the same class and its partition comes no later in the order
      train, test, validation. */
  ghost predicate CopiedBefore(cfg: SplitConfig, order: seq<ClassName>, a: Copy, b: Copy)
    requires a.dest.cls in order && b.dest.cls in order
  {
    || IndexOf(order, a.dest.cls) < IndexOf(order, b.dest.cls)
    || (a.dest.cls == b.dest.cls && PartitionRank(cfg, a.dest.partition) <= PartitionRank(cfg, b.dest.partition))
  }

  /** Every copy's class is in `order`, and the copies are sorted class by
      class in that order, and within a class train, test, validation. */
  ghost predicate InCopyOrder(cfg: SplitConfig, order: seq<ClassName>, log: seq<Copy>)
  {
    && (forall i :: 0 <= i < |log| ==> log[i].dest.cls in order)
    && (forall i, j :: 0 <= i < j < |log| ==> CopiedBefore(cfg, order, log[i], log[j]))
  }

  lemma IndexOfDistinct<T>(s: seq<T>, k: nat)
    requires Distinct(s) && k < |s|
    ensures IndexOf(s, s[k]) == k
  {
  }

  /** Within one class, copies into the train directory come first, then
      the test directory, then the validation directory. */
  lemma ProcessClassRanks(run: Run, ds: Dataset, cfg: SplitConfig, oracle: SplitOracle, cls: ClassName)
    requires run.error.None? && DistinctPartitions(cfg)
    ensures var r := ProcessClass(run, ds, cfg, oracle, cls);
      forall i, j :: |run.log| <= i < j < |r.log| ==>
        PartitionRank(cfg, r.log[i].dest.partition) <= PartitionRank(cfg, r.log[j].dest.partition)
  {
    var r := ProcessClass(run, ds, cfg, oracle, cls);
    var made := MakeClassDirs(run, cfg, cls);
    if made.error.None? && cls in ds.contents {
      var files := ds.contents[cls];
      if oracle(files, cfg.testFraction).Some? {
        var first := oracle(files, cfg.testFraction).value;
        if oracle(first.train, cfg.testFraction).Some? {
          var second := oracle(first.train, cfg.testFraction).value;
          var log := PartitionLog(cfg, cls, made.imageId, second.train, first.test, second.test);
          assert r.log == run.log + log;
          PartitionLogRanks(cfg, cls, made.imageId, second.train, first.test, second.test);
          RanksOfSuffix(cfg, run.log, log, r.log);
        }
      }
    }
  }

  lemma RanksOfSuffix(cfg: SplitConfig, prefix: seq<Copy>, log: seq<Copy>, full: seq<Copy>)
    requires full == prefix + log
    requires forall i, j :: 0 <= i < j < |log| ==>
      PartitionRank(cfg, log[i].dest.partition) <= PartitionRank(cfg, log[j].dest.partition)
    ensures forall i, j :: |prefix| <= i < j < |full| ==>
      PartitionRank(cfg, full[i].dest.partition) <= PartitionRank(cfg, full[j].dest.partition)
  {
    forall i, j | |prefix| <= i < j < |full|
      ensures PartitionRank(cfg, full[i].dest.partition) <= PartitionRank(cfg, full[j].dest.partition)
    {
      assert full[i] == log[i - |prefix|] && full[j] == log[j - |prefix|];
    }
  }

  /** The copies of one class go to the train, the test and the validation
      directory in that order. */
  lemma PartitionLogRanks(cfg: SplitConfig, cls: ClassName, lastId: nat, train: seq<FileName>, test: seq<FileName>, val: seq<FileName>)
    requires DistinctPartitions(cfg)
    ensures var log := PartitionLog(cfg, cls, lastId, train, test, val);
      forall i, j :: 0 <= i < j < |log| ==>
        PartitionRank(cfg, log[i].dest.partition) <= PartitionRank(cfg, log[j].dest.partition)
  {
    var log := PartitionLog(cfg, cls, lastId, train, test, val);
    PartitionLogLayout(cfg, cls, lastId, train, test, val);
    forall j | 0 <= j < |log|
      ensures PartitionRank(cfg, log[j].dest.partition) ==
        if j < |train| then 0 else if j < |train| + |test| then 1 else 2
    {
    }
  }

  lemma {:induction false} ProcessClassesOrder(
    run: Run, ds: Dataset, cfg: SplitConfig, oracle: SplitOracle, order: seq<ClassName>, k: nat)
    requires Distinct(order) && k <= |order| && DistinctPartitions(cfg)
    requires InCopyOrder(cfg, order, run.log)
    requires forall i :: 0 <= i < |run.log| ==> IndexOf(order, run.log[i].dest.cls) < k
    ensures InCopyOrder(cfg, order, ProcessClasses(run, ds, cfg, oracle, order[k..]).log)
    decreases |order| - k
  {
    var todo := order[k..];
    if todo != [] && run.error.None? {
      var cls := order[k];
      assert todo[0] == cls;
      var next := ProcessClass(run, ds, cfg, oracle, cls);
      IndexOfDistinct(order, k);
      KeepsPrefix(run, next);
      ProcessClassRanks(run, ds, cfg, oracle, cls);
      forall i | 0 <= i < |next.log|
        ensures next.log[i].dest.cls in order && IndexOf(order, next.log[i].dest.cls) < k + 1
      {
      }
      forall i, j | 0 <= i < j < |next.log|
        ensures CopiedBefore(cfg, order, next.log[i], next.log[j])
      {
        if j < |run.log| {
          assert CopiedBefore(cfg, order, run.log[i], run.log[j]);
        }
      }
      assert todo[1..] == order[k + 1..];
      ProcessClassesOrder(next, ds, cfg, oracle, order, k + 1);
    }
  }

  /** Copies happen class by class in the order of the `dataset` listing
      (not the order of `classes`), and within a class into the train, then
      the test, then the validation directory. Any run that copies at all
      has three distinct partition directories, since `os.mkdir` of a
      repeated one raises first. */
  lemma CopyOrderFollowsListing(fs: FileSystem, ds: Dataset, cfg: SplitConfig, oracle: SplitOracle)
    requires Distinct(ds.entries)
    ensures var r := CreateSplit(fs, ds, cfg, oracle);
      r.log != [] ==> DistinctPartitions(cfg)
    ensures var r := CreateSplit(fs, ds, cfg, oracle);
      InCopyOrder(cfg, FilterClasses(ds.entries, cfg.classes), r.log)
  {
    var r := CreateSplit(fs, ds, cfg, oracle);
    if cfg.trainDir !in fs.dirs {
      var order := FilterClasses(ds.entries, cfg.classes);
      var made := MakePartitionDirs(fs, cfg);
      if made.error.None? {
        assert DistinctPartitions(cfg);
        assert order[0..] == order;
        ProcessClassesOrder(made, ds, cfg, oracle, order, 0);
      }
    }
  }

  // ---------------------------------------------------------------------
  // Every file of a class is copied once

  /** `train_test_split` assumed to partition its input: when it returns,
      the two parts together are its input, each file as often as in the
      input. */
  ghost predicate PartitioningOracle(oracle: SplitOracle)
  {
    forall files: seq<FileName>, fraction: real :: oracle(files, fraction).Some? ==>
      multiset(oracle(files, fraction).value.train) + multiset(oracle(files, fraction).value.test)
        == multiset(files)
  }

  /** The sources of a sequence of copies, in order. */
  function Sources(log: seq<Copy>): seq<string>
  {
    Map((c: Copy) => c.source, log)
  }

  /** The source paths of files of class `cls`, in order. */
  function SourcePaths(cls: ClassName, names: seq<FileName>): seq<string>
  {
    Map((file: FileName) => SourcePath(cls, file), names)
  }

  /** When a class is processed without an exception and the split oracle
      partitions its input, the class's train, test and validation copies
      together are its listed files, each copied once: as many copies as
      files, and the copied names are a rearrangement of the listing. */
  lemma ClassFilesCopiedOnce(run: Run, ds: Dataset, cfg: SplitConfig, oracle: SplitOracle, cls: ClassName)
    requires run.error.None? && PartitioningOracle(oracle)
    ensures var r := ProcessClass(run, ds, cfg, oracle, cls);
      r.error.None? ==> cls in ds.contents && |r.log| - |run.log| == |ds.contents[cls]|
    ensures var r := ProcessClass(run, ds, cfg, oracle, cls);
      r.error.None? ==> exists names: seq<FileName> ::
        multiset(names) == multiset(ds.contents[cls]) && Sources(r.log[|run.log|..]) == SourcePaths(cls, names)
    ensures var r := ProcessClass(run, ds, cfg, oracle, cls);
      r.error.None? ==>
        multiset(Sources(r.log[|run.log|..])) == multiset(SourcePaths(cls, ds.contents[cls]))
  {
    var r := ProcessClass(run, ds, cfg, oracle, cls);
    if r.error.Some? {
      return;
    }
    var made := MakeClassDirs(run, cfg, cls);
    var files := ds.contents[cls];
    var first := oracle(files, cfg.testFraction).value;
    var second := oracle(first.train, cfg.testFraction).value;
    assert r == CopyPartitions(made, cfg, cls, second.train, first.test, second.test);
    PartitionLogLayout(cfg, cls, made.imageId, second.train, first.test, second.test);
    assert r.log[|made.log|..] == PartitionLog(cfg, cls, made.imageId, second.train, first.test, second.test);
    PartsCopiedOnce(r.log, |made.log|, cls, files, first, second);
    SourcePathsPermute(cls, second.train + first.test + second.test, files);
  }

  /** A log tail that copies the parts of two nested splits of `files`
      copies each file of `files` once. */
  lemma PartsCopiedOnce(log: seq<Copy>, n0: nat, cls: ClassName, files: seq<FileName>, first: Halves, second: Halves)
    requires multiset(first.train) + multiset(first.test) == multiset(files)
    requires multiset(second.train) + multiset(second.test) == multiset(first.train)
    requires |log| == n0 + |second.train| + |first.test| + |second.test|
    requires Sources(log[n0..]) == SourcePaths(cls, second.train + first.test + second.test)
    ensures |log| - n0 == |files|
    ensures exists names: seq<FileName> ::
      multiset(names) == multiset(files) && Sources(log[n0..]) == SourcePaths(cls, names)
  {
    var names := second.train + first.test + second.test;
    assert multiset(names) == multiset(files);
    assert |names| == |files| by {
      assert |multiset(names)| == |multiset(files)|;
    }
  }

  /** Rearranging the file names rearranges their source paths alike. */
  lemma SourcePathsPermute(cls: ClassName, a: seq<FileName>, b: seq<FileName>)
    requires multiset(a) == multiset(b)
    ensures multiset(SourcePaths(cls, a)) == multiset(SourcePaths(cls, b))
  {
    MapPermute((file: FileName) => SourcePath(cls, file), a, b);
  }

  /** The source paths of every listed file of the classes in `todo`, class
      by class; a class without a listing contributes nothing. */
  function ClassSources(ds: Dataset, todo: seq<ClassName>): seq<string>
    decreases |todo|
  {
    if todo == [] then []
    else
      (if todo[0] in ds.contents then SourcePaths(todo[0], ds.contents[todo[0]]) else [])
      + ClassSources(ds, todo[1..])
  }

  /** The copies after position `a` are those up to `b` followed by those
      after `b`. */
  lemma JoinSegments(full: seq<Copy>, a: nat, b: nat, first: seq<string>, rest: seq<string>)
    requires a <= b <= |full|
    requires multiset(Sources(full[a..b])) == multiset(first)
    requires multiset(Sources(full[b..])) == multiset(rest)
    ensures multiset(Sources(full[a..])) == multiset(first + rest)
    ensures |full| - a == |first + rest|
  {
    assert full[a..] == full[a..b] + full[b..];
    MapAppend((c: Copy) => c.source, full[a..b], full[b..]);
    assert |multiset(Sources(full[a..]))| == |multiset(first + rest)|;
  }

  /** When the class loop finishes without an exception and the split oracle
      partitions its input, every class it was given is listed, and every
      listed file of those classes is copied exactly once. */
  lemma {:induction false} ProcessClassesCopiesAll(run: Run, ds: Dataset, cfg: SplitConfig, oracle: SplitOracle, todo: seq<ClassName>)
    requires PartitioningOracle(oracle)
    ensures var r := ProcessClasses(run, ds, cfg, oracle, todo);
      r.error.None? ==>
        && (forall c :: c in todo ==> c in ds.contents)
        && |r.log| - |run.log| == |ClassSources(ds, todo)|
        && multiset(Sources(r.log[|run.log|..])) == multiset(ClassSources(ds, todo))
    decreases |todo|
  {
    var r := ProcessClasses(run, ds, cfg, oracle, todo);
    if r.error.None? {
      if todo == [] {
        assert r.log[|run.log|..] == [];
      } else {
        var next := ProcessClass(run, ds, cfg, oracle, todo[0]);
        assert r == ProcessClasses(next, ds, cfg, oracle, todo[1..]);
        ClassFilesCopiedOnce(run, ds, cfg, oracle, todo[0]);
        ProcessClassesCopiesAll(next, ds, cfg, oracle, todo[1..]);
        assert next.log[|run.log|..] == r.log[|run.log|..|next.log|] by {
          assert r.log[..|next.log|] == next.log;
        }
        JoinSegments(r.log, |run.log|, |next.log|,
          SourcePaths(todo[0], ds.contents[todo[0]]), ClassSources(ds, todo[1..]));
      }
    }
  }

  /** A split that runs to the end without an exception, with an oracle that
      partitions its input, copies every file of every listed, requested
      class exactly once: the ids run from 1 to the number of such files. */
  lemma SplitCopiesEveryFile(fs: FileSystem, ds: Dataset, cfg: SplitConfig, oracle: SplitOracle)
    requires PartitioningOracle(oracle)
    ensures var r := CreateSplit(fs, ds, cfg, oracle);
      var todo := FilterClasses(ds.entries, cfg.classes);
      cfg.trainDir !in fs.dirs && r.error.None? ==>
        && (forall c :: c in ds.entries && c in cfg.classes ==> c in ds.contents)
        && |r.log| == |ClassSources(ds, todo)|
        && multiset(Sources(r.log)) == multiset(ClassSources(ds, todo))
  {
    if cfg.trainDir !in fs.dirs {
      var made := MakePartitionDirs(fs, cfg);
      var todo := FilterClasses(ds.entries, cfg.classes);
      ProcessClassesCopiesAll(made, ds, cfg, oracle, todo);
      assert CreateSplit(fs, ds, cfg, oracle) == ProcessClasses(made, ds, cfg, oracle, todo);
      assert CreateSplit(fs, ds, cfg, oracle).log[0..] == CreateSplit(fs, ds, cfg, oracle).log;
    }
  }

  // ---------------------------------------------------------------------
  // Configuration the splitter ignores

  lemma {:induction false} ProcessClassesIgnoresValidationFraction(
    run: Run, ds: Dataset, cfg: SplitConfig, oracle: SplitOracle, todo: seq<ClassName>, v: real)
    ensures ProcessClasses(run, ds, cfg, oracle, todo)
         == ProcessClasses(run, ds, cfg.(validationFraction := v), oracle, todo)
    decreases |todo|
  {
    if todo != [] && run.error.None? {
      var next := ProcessClass(run, ds, cfg, oracle, todo[0]);
      assert next == ProcessClass(run, ds, cfg.(validationFraction := v), oracle, todo[0]);
      ProcessClassesIgnoresValidationFraction(next, ds, cfg, oracle, todo[1..], v);
    }
  }

  /** `validation_split_percent` is never read: the outcome is the same for
      every value of it. */
  lemma ValidationFractionIgnored(fs: FileSystem, ds: Dataset, cfg: SplitConfig, oracle: SplitOracle, v: real)
    ensures CreateSplit(fs, ds, cfg, oracle) == CreateSplit(fs, ds, cfg.(validationFraction := v), oracle)
  {
    var made := MakePartitionDirs(fs, cfg);
    ProcessClassesIgnoresValidationFraction(made, ds, cfg, oracle, FilterClasses(ds.entries, cfg.classes), v);
  }

  lemma {:induction false} ProcessClassesUsesTestFraction(
    run: Run, ds: Dataset, cfg: SplitConfig, o1: SplitOracle, o2: SplitOracle, todo: seq<ClassName>)
    requires forall files :: o1(files, cfg.testFraction) == o2(files, cfg.testFraction)
    ensures ProcessClasses(run, ds, cfg, o1, todo) == ProcessClasses(run, ds, cfg, o2, todo)
    decreases |todo|
  {
    if todo != [] && run.error.None? {
      var next := ProcessClass(run, ds, cfg, o1, todo[0]);
      assert next == ProcessClass(run, ds, cfg, o2, todo[0]);
      ProcessClassesUsesTestFraction(next, ds, cfg, o1, o2, todo[1..]);
    }
  }

  /** Both splits pass `test_split_percent`: two oracles that agree on that
      fraction give the same outcome, whatever they do on other fractions. */
  lemma OnlyTestFractionConsulted(fs: FileSystem, ds: Dataset, cfg: SplitConfig, o1: SplitOracle, o2: SplitOracle)
    requires forall files :: o1(files, cfg.testFraction) == o2(files, cfg.testFraction)
    ensures CreateSplit(fs, ds, cfg, o1) == CreateSplit(fs, ds, cfg, o2)
  {
    var made := MakePartitionDirs(fs, cfg);
    ProcessClassesUsesTestFraction(made, ds, cfg, o1, o2, FilterClasses(ds.entries, cfg.classes));
  }

  // ---------------------------------------------------------------------
  // Directories

  /** The only directories a call creates are the three partition
      directories and the class directories of listed, requested classes. */
  lemma DirectoriesCreated(fs: FileSystem, ds: Dataset, cfg: SplitConfig, oracle: SplitOracle)
    ensures var r := CreateSplit(fs, ds, cfg, oracle);
      forall d :: d in r.fs.dirs ==>
      || d in fs.dirs
      || d in {cfg.trainDir, cfg.testDir, cfg.valDir}
      || exists c :: c in ds.entries && c in cfg.classes && d in ClassDirs(cfg, c)
  {
    var r := CreateSplit(fs, ds, cfg, oracle);
    if cfg.trainDir !in fs.dirs {
      var made := MakePartitionDirs(fs, cfg);
      var todo := FilterClasses(ds.entries, cfg.classes);
      assert r == ProcessClasses(made, ds, cfg, oracle, todo);
      DirsOfClasses(fs.dirs, made.fs.dirs, r.fs.dirs, ds, cfg, todo);
    }
  }

  lemma DirsOfClasses(before: set<Dir>, made: set<Dir>, after: set<Dir>, ds: Dataset, cfg: SplitConfig, todo: seq<ClassName>)
    requires made <= before + {cfg.trainDir, cfg.testDir, cfg.valDir}
    requires forall d :: d in after ==> d in made || exists c :: c in todo && d in ClassDirs(cfg, c)
    requires forall x :: x in todo <==> x in ds.entries && x in cfg.classes
    ensures forall d :: d in after ==>
      || d in before
      || d in {cfg.trainDir, cfg.testDir, cfg.valDir}
      || exists c :: c in ds.entries && c in cfg.classes && d in ClassDirs(cfg, c)
  {
  }

  /** A test directory left over from an earlier run while the train
      directory is missing: `os.mkdir(test_dir)` raises before any class is
      processed, after the train directory was created. */
  lemma LeftoverTestDirRaises(fs: FileSystem, ds: Dataset, cfg: SplitConfig, oracle: SplitOracle)
    requires cfg.trainDir !in fs.dirs && cfg.testDir in fs.dirs
    ensures CreateSplit(fs, ds, cfg, oracle).error == Some(FileExists(cfg.testDir))
    ensures CreateSplit(fs, ds, cfg, oracle).log == []
    ensures CreateSplit(fs, ds, cfg, oracle).fs.dirs == fs.dirs + {cfg.trainDir}
  {
  }
}

=== FILE: model_flattener.dfy ===
/** The model flattener of transfer_learning.py (`flatten_model` and its inner
    `get_layers`). A Keras layer either exposes a nested `layers` list (a
    composite: a functional model used as a layer) or it does not (a leaf);
    the source tells the two apart by catching `AttributeError`, this model by
    the constructor of `Layer`. */
module ModelFlattener {
  import opened Results

  /** A layer of a Keras graph: a leaf computation, or a composite whose
      `layers` are its children, in order. */
  datatype Layer = Leaf(name: string) | Composite(children: seq<Layer>)

  /** Number of nodes, leaves and composites alike; it decreases when a
      composite is replaced by its children. */
  function Size(layers: seq<Layer>): nat
  {
    if layers == [] then 0
    else
      match layers[0]
      case Leaf(_) => 1 + Size(layers[1..])
      case Composite(children) => 1 + Size(children) + Size(layers[1..])
  }

  /** Number of leaves reachable from `layers`. */
  function LeafCount(layers: seq<Layer>): nat
  {
    if layers == [] then 0
    else
      match layers[0]
      case Leaf(_) => 1 + LeafCount(layers[1..])
      case Composite(children) => LeafCount(children) + LeafCount(layers[1..])
  }

  /** `x` is one of `layers` or sits somewhere below one of them. */
  predicate Occurs(x: Layer, layers: seq<Layer>)
  {
    if layers == [] then false
    else
      x == layers[0]
      || (layers[0].Composite? && Occurs(x, layers[0].children))
      || Occurs(x, layers[1..])
  }

  predicate AllLeaves(layers: seq<Layer>)
  {
    forall i :: 0 <= i < |layers| ==> layers[i].Leaf?
  }

  /** `get_layers`: expand every composite in place by the flattening of its
      children and keep every leaf, left to right. The result holds only
      leaves, one per leaf of the input. */
  function Flatten(layers: seq<Layer>): (flat: seq<Layer>)
    ensures AllLeaves(flat)
    ensures |flat| == LeafCount(layers)
  {
    if layers == [] then []
    else
      match layers[0]
      case Leaf(_) => [layers[0]] + Flatten(layers[1..])
      case Composite(children) => Flatten(children) + Flatten(layers[1..])
  }

  /** `flatten_model`: a `Sequential` model built from the flattened `layers`
      of the given model. Reading `layers` of a leaf raises `AttributeError`,
      which the outer call does not catch: that is `None` here. */
  function FlattenModel(model: Layer): (r: Option<Layer>)
    ensures r.Some? <==> model.Composite?
    ensures r.Some? ==> r.value.Composite? && AllLeaves(r.value.children)
    ensures r.Some? ==> |r.value.children| == LeafCount(model.children)
  {
    match model
    case Leaf(_) => None
    case Composite(children) => Some(Composite(Flatten(children)))
  }

  /** Flattening distributes over concatenation: the layers of `a` come out
      before those of `b`. */
  lemma {:induction false} FlattenAppend(a: seq<Layer>, b: seq<Layer>)
    ensures Flatten(a + b) == Flatten(a) + Flatten(b)
    decreases |a|
  {
    if a != [] {
      assert (a + b)[0] == a[0];
      assert (a + b)[1..] == a[1..] + b;
      FlattenAppend(a[1..], b);
    } else {
      assert a + b == b;
    }
  }

  /** A list without composites is returned unchanged, and only such a list. */
  lemma {:induction false} FlattenIdentityIffLeaves(layers: seq<Layer>)
    ensures Flatten(layers) == layers <==> AllLeaves(layers)
    decreases |layers|
  {
    if layers != [] && AllLeaves(layers) {
      assert AllLeaves(layers[1..]);
      FlattenIdentityIffLeaves(layers[1..]);
      assert layers == [layers[0]] + layers[1..];
    }
  }

  /** Flattening an already flat list changes nothing. */
  lemma FlattenIdempotent(layers: seq<Layer>)
    ensures Flatten(Flatten(layers)) == Flatten(layers)
  {
    FlattenIdentityIffLeaves(Flatten(layers));
  }

  /** A layer is in the flattened list exactly when it is a leaf found
      somewhere in the nested structure. */
  lemma {:induction false} FlattenMembership(x: Layer, layers: seq<Layer>)
    ensures x in Flatten(layers) <==> x.Leaf? && Occurs(x, layers)
    decreases layers
  {
    if layers != [] {
      FlattenMembership(x, layers[1..]);
      match layers[0]
      case Leaf(_) =>
      case Composite(children) =>
        FlattenMembership(x, children);
    }
  }

  /** Depth-first, left-to-right order: the leaves of a composite appear in
      place of that composite, between the leaves of the layers before and
      after it. */
  lemma DepthFirstOrder(before: seq<Layer>, children: seq<Layer>, after: seq<Layer>)
    ensures Flatten(before + [Composite(children)] + after)
         == Flatten(before) + Flatten(children) + Flatten(after)
  {
    var one := [Composite(children)];
    assert one[1..] == [];
    assert Flatten(one) == Flatten(children) by {
      assert Flatten(one) == Flatten(children) + Flatten([]);
      assert Flatten(children) + [] == Flatten(children);
    }
    FlattenAppend(before, one);
    FlattenAppend(before + one, after);
  }

  /** Flattening a model keeps the leaves of the original, in order, so a
      second flattening of the flat model changes nothing. */
  lemma FlattenModelPreservesLeaves(model: Layer)
    requires model.Composite?
    ensures FlattenModel(model).Some?
    ensures Flatten([FlattenModel(model).value]) == Flatten([model])
    ensures FlattenModel(FlattenModel(model).value) == FlattenModel(model)
  {
    var flat := Flatten(model.children);
    FlattenIdempotent(model.children);
    assert Flatten([Composite(flat)]) == Flatten(flat) + Flatten([]);
    assert Flatten([model]) == Flatten(model.children) + Flatten([]);
  }

  /** An iterative flattener with an explicit work list: pop the first
      layer, emit it if it is a leaf, otherwise push its children in front.
      It computes the same list as the recursive `Flatten`. */
  method FlattenWithStack(layers: seq<Layer>) returns (flat: seq<Layer>)
    ensures flat == Flatten(layers)
  {
    flat := [];
    var work := layers;
    while work != []
      invariant flat + Flatten(work) == Flatten(layers)
      decreases Size(work)
    {
      var head := work[0];
      match head
      case Leaf(_) =>
        flat := flat + [head];
        work := work[1..];
      case Composite(children) =>
        FlattenAppend(children, work[1..]);
        work := children + work[1..];
        SizeAppend(children, work[|children|..]);
    }
  }

  lemma {:induction false} SizeAppend(a: seq<Layer>, b: seq<Layer>)
    ensures Size(a + b) == Size(a) + Size(b)
    decreases |a|
  {
    if a != [] {
      assert (a + b)[0] == a[0];
      assert (a + b)[1..] == a[1..] + b;
      SizeAppend(a[1..], b);
    } else {
      assert a + b == b;
    }
  }
}

=== FILE: results.dfy ===
/** Failure-carrying values shared by the modules of this model. The Python
    source signals every failure by raising an exception; here a raised
    exception becomes a `Failure` (or a `None`) that the caller inspects. */
module Results {

  /** A value that may be absent. */
  datatype Option<+T> = None | Some(value: T)

  /** Either the value an operation returns or the exception it raises. */
  datatype Result<+T, +E> = Success(value: T) | Failure(error: E)
}

=== FILE: sequences.dfy ===
/** Order-related notions on sequences used by several modules. */
module Sequences {

  /** `a` can be obtained from `b` by deleting elements, so the elements of
      `a` occur in `b` in the same relative order. */
  predicate IsSubsequence<T(==)>(a: seq<T>, b: seq<T>)
    decreases |b|
  {
    if a == [] then true
    else if b == [] then false
    else if a[0] == b[0] then IsSubsequence(a[1..], b[1..])
    else IsSubsequence(a, b[1..])
  }

  /** No element occurs twice, as in a directory listing. */
  predicate Distinct<T(==)>(s: seq<T>)
  {
    forall i, j :: 0 <= i < j < |s| ==> s[i] != s[j]
  }

  /** Position of the first occurrence of `x` in `s`. */
  function IndexOf<T(==)>(s: seq<T>, x: T): (k: nat)
    requires x in s
    ensures k < |s| && s[k] == x
    ensures forall j :: 0 <= j < k ==> s[j] != x
  {
    if s[0] == x then 0 else 1 + IndexOf(s[1..], x)
  }

  /** Putting an element in front of `b` keeps `a` a subsequence of it. */
  lemma {:induction false} SubsequenceCons<T>(a: seq<T>, b: seq<T>, x: T)
    requires IsSubsequence(a, b)
    ensures IsSubsequence(a, [x] + b)
    decreases |b|, 1
  {
    var b' := [x] + b;
    assert b'[1..] == b;
    if a != [] && a[0] == x {
      SubsequenceDropFirst(a, b);
    }
  }

  /** Dropping the first element of a subsequence keeps it a subsequence. */
  lemma {:induction false} SubsequenceDropFirst<T>(a: seq<T>, b: seq<T>)
    requires a != [] && IsSubsequence(a, b)
    ensures IsSubsequence(a[1..], b)
    decreases |b|, 0
  {
    assert b == [b[0]] + b[1..];
    if a[0] == b[0] {
      SubsequenceCons(a[1..], b[1..], b[0]);
    } else {
      SubsequenceDropFirst(a, b[1..]);
      SubsequenceCons(a[1..], b[1..], b[0]);
    }
  }

  /** A subsequence of `b` is a subsequence of every extension of `b`. */
  lemma {:induction false} SubsequenceAppend<T>(a: seq<T>, b: seq<T>, c: seq<T>)
    requires IsSubsequence(a, b)
    ensures IsSubsequence(a, b + c)
    decreases |b|
  {
    if a != [] {
      assert (b + c)[0] == b[0];
      assert (b + c)[1..] == b[1..] + c;
      if a[0] == b[0] {
        SubsequenceAppend(a[1..], b[1..], c);
      } else {
        SubsequenceAppend(a, b[1..], c);
      }
    }
  }

  /** `f` applied to every element of `s`, in order. */
  function Map<A, B>(f: A -> B, s: seq<A>): seq<B>
  {
    seq(|s|, i requires 0 <= i < |s| => f(s[i]))
  }

  lemma MapAppend<A, B>(f: A -> B, a: seq<A>, b: seq<A>)
    ensures Map(f, a + b) == Map(f, a) + Map(f, b)
  {
    assert forall i :: 0 <= i < |a + b| ==> Map(f, a + b)[i] == (Map(f, a) + Map(f, b))[i];
  }

  /** Mapping two rearrangements of each other gives two rearrangements of
      each other. */
  lemma {:induction false} MapPermute<A, B>(f: A -> B, a: seq<A>, b: seq<A>)
    requires multiset(a) == multiset(b)
    ensures multiset(Map(f, a)) == multiset(Map(f, b))
    decreases |a|
  {
    if a == [] {
      assert |b| == |multiset(b)| == 0;
    } else {
      var x := a[0];
      assert x in multiset(b);
      var k :| 0 <= k < |b| && b[k] == x;
      var before, after := b[..k], b[k + 1..];
      assert b == before + [x] + after;
      assert a == [x] + a[1..];
      assert multiset(b) == multiset(before) + multiset{x} + multiset(after);
      assert multiset(a) == multiset{x} + multiset(a[1..]);
      assert multiset(before + after) == multiset(before) + multiset(after);
      forall y
        ensures multiset(a[1..])[y] == multiset(before + after)[y]
      {
        assert multiset(a)[y] == multiset{x}[y] + multiset(a[1..])[y];
        assert multiset(b)[y] == multiset(before)[y] + multiset{x}[y] + multiset(after)[y];
      }
      assert multiset(a[1..]) == multiset(before + after);
      MapPermute(f, a[1..], before + after);
      MapAppend(f, [x], a[1..]);
      MapAppend(f, before, after);
      MapAppend(f, before + [x], after);
      MapAppend(f, before, [x]);
    }
  }

  /** The first `k + 1` elements are the first element followed by the first
      `k` elements of the rest. */
  lemma PrefixOfTail<T>(s: seq<T>, k: nat)
    requires k < |s|
    ensures s[..k + 1][0] == s[0] && s[..k + 1][1..] == s[1..][..k]
  {
  }
}
